=== FILE: README.md ===
# Wavefront OBJ loader core, modelled in Dafny

This project models the core of the runtime OBJ loader in
`Assets/Scripts/LoaderModule.cs`. It has four stages:

- **Number scanners** (`Scanner`). `ParseInt` and `ParseFloat` are cursor-passing scanners. They skip spaces, read an
  optional `-` (floats only), integer digits, and then an optional `.` with fraction digits.
- **Face parser** (`FaceParser`). The `f` line corner loop reads `v`, `v/t`, `v//n` and `v/t/n`. It stores 1-based
  indices as 0-based, with `-1` meaning "absent". The polygon is then fan-triangulated around its first corner.
- **Line dispatcher and group bookkeeping** (`ObjParser`). This covers `ParseObjFile`, `ParseVertex`, `ParseNormal`,
  `ParseUV`, `AddNewObject` and `ExtractName`, plus the read loop and the post-loop group closure of `LoadAsset`. The
  loop is a fold over the file's lines, each first trimmed of white space as `String.Trim` does, with a `ParseState` record. The record holds the raw vertex, normal and uv lists,
  the closed objects and the current object. The source mutates the current object through `ref`.
- **Vertex welder** (`Welder`). `CreateOptimizedMeshData` and `HashVertexKey` resolve each triangle corner against the
  raw lists, with defaults for missing indices. Each corner is then looked up in a dictionary keyed by the vertex key.
  A hit reuses the stored index. A miss appends a unique vertex at the next index.

Shared records live in `MeshTypes`: vectors over `real`, `MeshVertex`, `ObjFace`, `ObjObject` and
`OptimizedMeshData`.

The model states each operation's behaviour and proves the following about it:

- Each scanner reads back what it is given: the decimal spelling of any natural number, and any written float.
- The corner loop reads back any written corner list. It hangs exactly when the rest of the line holds a character
  other than a space, a digit or `/`.
- A fan of `n >= 3` corners yields exactly `n - 2` triangles of the form `(c0, ck, ck+1)`.
- How each kind of line changes the state:
  - a `v`, `vn` or `vt` line appends to its own raw list and changes nothing else;
  - a face line changes only the current object's faces;
  - an `o` or `g` line closes the current object into the object list when it has faces, and starts a new current
    object;
  - every other line changes nothing.
- After `LoadAsset`:
  - the raw lists are exactly the file's element lines read in order;
  - the objects hold exactly the file's triangles, in order;
  - the object list is never empty;
  - every object has at least one face, except the lone faceless fallback.
- After welding:
  - there are three triangle entries per face, each naming a unique vertex;
  - the unique lists are parallel;
  - no two unique vertices are keys the dictionary would confuse;
  - a corner that an existing unique vertex matches reuses a matching index and leaves the unique lists unchanged;
  - a corner that no unique vertex matches appends its own resolved position, normal and uv at index = previous
    count;
  - so the corner that first uses an index is the one whose attributes are stored there, and new indices appear in
    the order 0, 1, 2, …;
  - a corner identical to an earlier one reuses an existing index;
  - welding is idempotent: feeding a welded buffer back in, with its unique lists as the raw lists, gives back the
    same buffer.

Two things are parameters of the model:

- The text of the file is a sequence of lines. Reading the file is not modelled.
- The hash of `HashVertexKey` is a function parameter.

## Model

| member | source | states |
|---|---|---|
| Scanner.SkipSpaces | Assets/Scripts/LoaderModule.cs:307 | the cursor moves forward over `' '` only, stops on the first non-space character or at the end, and never passes the end |
| Scanner.ParseInt | Assets/Scripts/LoaderModule.cs:343-355 | the cursor never decreases and stays within the line when it starts within it; a start at or past the end reads 0 and leaves the cursor where it is; only spaces and digits are consumed; the scan stops on a non-digit; the value is the decimal value of the digit run after the spaces (0 when the run is empty) |
| Scanner.AccumulateDigitsValue | Assets/Scripts/LoaderModule.cs:348-352 | the `result * 10 + digit` loop, started on the value of the digits already read, ends at the end of the digit run with the decimal value of the whole run |
| Scanner.AccumulateDigitsRun | Assets/Scripts/LoaderModule.cs:321-325 | the integer-part loop over a known maximal digit run reads exactly that run's decimal value |
| Scanner.AccumulateFractionValue | Assets/Scripts/LoaderModule.cs:327-337 | the fraction loop (`part += digit * multiplier; multiplier *= 0.1`) ends at the end of the digit run, never past the line, having added to `part` the run's digits each weighted by the running multiplier |
| Scanner.FractionSumScaled | Assets/Scripts/LoaderModule.cs:316-339 | that weighted sum is `multiplier * 10` times the positional value of the digits, so from the source's starting multiplier `0.1` the loop yields exactly the fraction's value |
| Scanner.FractionValueBounds | Assets/Scripts/LoaderModule.cs:327-337 | the fraction part of a float is always in `[0, 1)`, so the integer part carries the whole units |
| Scanner.ParseIntReadsDigits | Assets/Scripts/LoaderModule.cs:343-355 | started on a non-empty maximal digit run, ParseInt returns that run's decimal value and the cursor just past it |
| Scanner.ParseIntReadsNothing | Assets/Scripts/LoaderModule.cs:343-355 | when the first non-space character is not a digit, or there is none, ParseInt returns 0 with the cursor advanced only past the spaces |
| Scanner.ParseIntReadsDecimal | Assets/Scripts/LoaderModule.cs:343-355 | round trip: the decimal spelling of any natural number, followed by a non-digit or nothing, is read back as that number with the cursor just past it |
| Scanner.ParseFloat | Assets/Scripts/LoaderModule.cs:305-341 | the cursor never decreases and stays within the line when it starts within it; a start at or past the end reads 0.0 and leaves the cursor where it is; the scan never stops on a digit |
| Scanner.ParseFloatAt | Assets/Scripts/LoaderModule.cs:305-341 | for any layout of spaces, optional `-`, integer digits and optional `.`-fraction, ParseFloat returns the signed value `integer + fraction` and the cursor at the layout's end |
| Scanner.ParseFloatLayout | Assets/Scripts/LoaderModule.cs:305-341 | every cursor on the line has such a layout, so the value and end that ParseFloatAt gives cover every scan that starts on the line |
| Scanner.ParseFloatReadsNothing | Assets/Scripts/LoaderModule.cs:305-341 | when the first non-space character cannot start a number, ParseFloat returns 0.0 with the cursor advanced only past the spaces |
| Scanner.ParseFloatReadsText | Assets/Scripts/LoaderModule.cs:305-341 | round trip: a float written as optional `-`, digits, and optional `.` and digits, after spaces and before a character that cannot continue it, is read back as its denoted value with the cursor just past it |
| FaceParser.ReadIndexAt | Assets/Scripts/LoaderModule.cs:234-235 | a written 1-based index `k = idx + 1` is scanned back as `k`, and storing it yields `idx` (`k > 0` becomes `k - 1`, `0` becomes `-1`) |
| FaceParser.ParseNormalPart | Assets/Scripts/LoaderModule.cs:248-258 | a normal index other than `-1` is only ever read after a second `/` followed by a digit; nothing is consumed unless the part starts with `/`; the vertex and uv indices pass through; only face characters are consumed and the scan never stops on a digit |
| FaceParser.ParseUvPart | Assets/Scripts/LoaderModule.cs:237-258 | after the first `/`, a uv index other than `-1` is only ever read when the next character is not another `/`; the vertex index passes through; only face characters are consumed; the result is a well-formed corner |
| FaceParser.ParseNormalPartAt | Assets/Scripts/LoaderModule.cs:248-258 | the normal part yields corner c exactly in the two shapes the source reads: a `/` followed by a digit run that scans to the 1-based normal index, or (for an absent normal) nothing consumed before a space or the end |
| FaceParser.ParseUvPartAt | Assets/Scripts/LoaderModule.cs:237-258 | the uv part yields corner c when the uv number is scanned from a character other than `/`, or (for an absent uv) nothing is read before a second `/` or the end, and the normal part then yields c |
| FaceParser.ParseCorner | Assets/Scripts/LoaderModule.cs:232-259 | the corner scan, started on a non-space character, advances exactly when that character is a digit or `/`, consumes only spaces, digits and `/`, never stops on a digit, and yields `(-1,-1,-1)` when it does not advance |
| FaceParser.ParseCornerReadsText | Assets/Scripts/LoaderModule.cs:232-259 | round trip: the OBJ spelling (`v`, `v/t`, `v//n` or `v/t/n`) of any well-formed corner is read back as that corner, with the cursor just past it |
| FaceParser.FaceCorners | Assets/Scripts/LoaderModule.cs:225-262 | the corner loop yields at most one corner per remaining character, every corner well formed, or None when it would not end |
| FaceParser.FaceCornersStuckIff | Assets/Scripts/LoaderModule.cs:225-262 | the corner loop fails to end if and only if the rest of the line holds a character other than a space, a digit or `/` |
| FaceParser.FaceCornersReadsText | Assets/Scripts/LoaderModule.cs:225-262 | round trip: a space-separated spelling of any corner list, running to the end of the line, is read back as exactly that list |
| FaceParser.FanFrom | Assets/Scripts/LoaderModule.cs:267-275 | the fan over a chain of `m >= 2` corners has `m - 1` triangles, the k-th joining the first corner to chain elements k and k+1; a shorter chain gives none |
| FaceParser.Triangulate | Assets/Scripts/LoaderModule.cs:264-276 | `n >= 3` corners give exactly `n - 2` triangles, the k-th being `(c0, c(k+1), c(k+2))`; fewer corners give none |
| FaceParser.TriangulateCoversCorners | Assets/Scripts/LoaderModule.cs:264-276 | every corner of a polygon with at least three corners appears in some triangle of its fan |
| FaceParser.ParseFace | Assets/Scripts/LoaderModule.cs:219-277 | the face line hangs (None) if and only if a character after `f ` is not a space, a digit or `/`; otherwise the existing faces are kept as a prefix and at most one triangle per character is added |
| FaceParser.ParseFaceReadsText | Assets/Scripts/LoaderModule.cs:219-277 | round trip: a face line written from any non-empty list of well-formed corners appends exactly the fan triangulation of that list |
| ObjParser.ParseObjLine | Assets/Scripts/LoaderModule.cs:141-185 | `v ` appends one vertex, `vn` one normal and `vt` one uv, read from columns 2, 3 and 3, with everything else unchanged; `f ` hangs exactly when the face loop would, and otherwise changes only the current object's faces, keeping the old ones as a prefix; `o`/`g` lines longer than 2 switch groups; every other line (1-character `v`, `v` with another second character, `f` without a space, short `o`/`g`, `m`, `u`, anything else) leaves the state unchanged |
| ObjParser.ReadFloats | Assets/Scripts/LoaderModule.cs:189-193 | the element parsers' consecutive `ParseFloat(line, ref index)` calls yield exactly n values, the first being the float scanned at the starting column |
| ObjParser.ReadVec3 | Assets/Scripts/LoaderModule.cs:189-193 | three scans, each starting where the previous one stopped, give the x, y and z of the vector |
| ObjParser.ReadVec2 | Assets/Scripts/LoaderModule.cs:211-214 | two scans, the second starting where the first stopped, give the u and v of the vector |
| ObjParser.ParseVertex | Assets/Scripts/LoaderModule.cs:187-196 | the vertex list grows by exactly one element and keeps the old ones as a prefix; the new vertex is the three floats scanned from column 2 |
| ObjParser.ParseNormal | Assets/Scripts/LoaderModule.cs:198-207 | the normal list grows by exactly one element and keeps the old ones as a prefix; the new normal is the three floats scanned from column 3 |
| ObjParser.ParseUV | Assets/Scripts/LoaderModule.cs:209-217 | the uv list grows by exactly one element and keeps the old ones as a prefix; the new uv is the two floats scanned from column 3 |
| ObjParser.ReadFloatsReadsText | Assets/Scripts/LoaderModule.cs:187-217 | consecutive ParseFloat calls read back, value by value, a space-separated list of written floats that runs to the end of the line |
| ObjParser.VertexLineReads | Assets/Scripts/LoaderModule.cs:187-196 | round trip: `v` followed by three written floats appends the vertex of exactly those three values |
| ObjParser.NormalLineReads | Assets/Scripts/LoaderModule.cs:198-207 | round trip: `vn` followed by three written floats appends the normal of exactly those three values |
| ObjParser.UvLineReads | Assets/Scripts/LoaderModule.cs:209-217 | round trip: `vt` followed by two written floats appends the uv of exactly those two values |
| ObjParser.VertexLineWithoutNumbers | Assets/Scripts/LoaderModule.cs:187-196 | a `v ` line whose first non-space character cannot start a number still appends a vertex, the origin |
| ObjParser.ShortTagLinesReadZeros | Assets/Scripts/LoaderModule.cs:198-217 | a bare `vn` or `vt` still appends an all-zero normal or uv, because its cursor starts past the end |
| ObjParser.FaceLineReads | Assets/Scripts/LoaderModule.cs:164-169 | a written face line appends exactly the fan of its corners to the current object and changes nothing else |
| ObjParser.NameEnd | Assets/Scripts/LoaderModule.cs:299 | the name end moves back over trailing spaces only, never before the start, and stops after a non-space character |
| ObjParser.ExtractName | Assets/Scripts/LoaderModule.cs:293-302 | the name is no longer than the rest of the line, neither starts nor ends with a space, and is empty if and only if the rest of the line is all spaces |
| ObjParser.ExtractNameAt | Assets/Scripts/LoaderModule.cs:293-302 | the name is exactly the text between the leading and the trailing run of spaces |
| ObjParser.AddNewObject | Assets/Scripts/LoaderModule.cs:279-291 | the current object is appended to the closed objects if and only if it has at least one face; the new current object has no faces and is named by the trimmed text from column 2; the raw lists are unchanged |
| ObjParser.GroupLineNames | Assets/Scripts/LoaderModule.cs:171-177 | an `o` or `g` line, spaces and a name starts an empty object with exactly that name |
| ObjParser.Trim | Assets/Scripts/LoaderModule.cs:113 | the trimmed line is no longer than the line, neither starts nor ends with a `char.IsWhiteSpace` character (tab to carriage return, space, U+0085, U+00A0 and the Unicode space and separator characters), and is empty exactly when the line is all white space |
| ObjParser.TrimAt | Assets/Scripts/LoaderModule.cs:113 | the trimmed line is exactly the stretch between the first and the last character that is not white space, whatever white space surrounds it |
| ObjParser.TrimmedTabFaceLineDiverges | Assets/Scripts/LoaderModule.cs:111-116 | a face line indented by a tab is trimmed before dispatch, so `\tf 1 x` still stops the whole load |
| ObjParser.GroupLineFaces | Assets/Scripts/LoaderModule.cs:279-291 | closing the current object for a group line keeps every face (closed plus current), and a faceless current object is dropped, so closed objects stay non-empty |
| ObjParser.ParseObjLineFaces | Assets/Scripts/LoaderModule.cs:141-185 | a line neither loses nor invents faces: the faces of closed plus current objects grow by exactly the line's fan triangles, and closing a group never adds a faceless object |
| ObjParser.Step | Assets/Scripts/LoaderModule.cs:113-116 | one trimmed line fails exactly when it is a diverging face line; an empty or `#` line leaves the state unchanged; the raw lists only ever grow, keeping their old contents as a prefix |
| ObjParser.ParseLines | Assets/Scripts/LoaderModule.cs:111-117 | the read loop only ever appends to the raw lists: each keeps its contents from before the loop as a prefix |
| ObjParser.StepContents | Assets/Scripts/LoaderModule.cs:113-116 | one trimmed line of the loop fails exactly when it is a diverging face line; otherwise each raw list and the face total grow by exactly what that line contributes on its own (nothing for an empty or `#` line, whose first character is no tag), and closed objects stay non-empty |
| ObjParser.ParseLinesDivergesIff | Assets/Scripts/LoaderModule.cs:111-117 | the read loop fails to end if and only if some trimmed line is a face line that hangs |
| ObjParser.ParseLinesContents | Assets/Scripts/LoaderModule.cs:111-117 | after the loop, each raw list is the old list followed by the file's vertex, normal or uv lines read in order; the faces are the old ones followed by the file's triangles in order; closed objects stay non-empty |
| ObjParser.CloseObjects | Assets/Scripts/LoaderModule.cs:119-128 | the object list is never empty; the last object is appended if and only if it has faces; when no object was kept, the faceless current object stands alone |
| ObjParser.CloseObjectsFaces | Assets/Scripts/LoaderModule.cs:119-128 | closing the objects after the loop keeps every face of the closed and current objects, in order, and leaves either objects that all have faces or the single faceless fallback |
| ObjParser.LoadAsset | Assets/Scripts/LoaderModule.cs:85-139 | a completed load yields a non-empty object list that begins with the objects the loop closed; LoadAssetContents states the rest |
| ObjParser.LoadAssetContents | Assets/Scripts/LoaderModule.cs:105-128 | LoadAsset fails exactly when some line's face loop hangs; otherwise the raw lists are exactly the file's element lines read in order, the objects' faces are exactly the file's triangles in order, the list is non-empty, and every object has a face except a single faceless fallback |
| Welder.Resolve | Assets/Scripts/LoaderModule.cs:442-447 | an index in range picks the listed position, normal or uv; a negative or too-large index gives the zero position, the up normal or the zero uv |
| Welder.Corners | Assets/Scripts/LoaderModule.cs:436-440 | the welder visits exactly three corners per face |
| Welder.CornersAt | Assets/Scripts/LoaderModule.cs:436-440 | corner `3k + i` of the visit order is corner i of face k |
| Welder.CloseReflexive | Assets/Scripts/LoaderModule.cs:511-522 | every key is Equal to itself |
| Welder.CloseSymmetric | Assets/Scripts/LoaderModule.cs:511-522 | Equals is symmetric |
| Welder.CloseNotTransitive | Assets/Scripts/LoaderModule.cs:511-522 | Equals is not transitive: there are three keys with the first Equal to the second and the second to the third, but not the first to the third |
| Welder.WeldsEmpty | Assets/Scripts/LoaderModule.cs:430-434 | the empty buffers and dictionary satisfy the welder invariant |
| Welder.HitWelds | Assets/Scripts/LoaderModule.cs:451-454 | appending the index of a matching unique vertex keeps the welder invariant |
| Welder.MissDistinct | Assets/Scripts/LoaderModule.cs:455-463 | appending a vertex no stored key matches keeps the unique vertices pairwise unmatched |
| Welder.MissWelds | Assets/Scripts/LoaderModule.cs:455-463 | appending a new unique vertex at the next index keeps the welder invariant |
| Welder.IndexesAfter | Assets/Scripts/LoaderModule.cs:457-461 | the dictionary maps key j to index j after a hit, and after a miss that registers the new key at `uniqueVertices.Count` |
| Welder.WeldCorner | Assets/Scripts/LoaderModule.cs:449-463 | when some stored key matches the corner's key (same hash, Equal), the returned index names such a matching unique vertex and the result only appends it to the triangles, leaving the unique position, normal and uv lists unchanged; when none matches, the returned index is the previous count and the key's position, normal and uv are appended along with it; the invariant and the dictionary's consistency are kept, and earlier triangle entries are untouched |
| Welder.WeldNext | Assets/Scripts/LoaderModule.cs:438-462 | one pass of the inner loop body for corner t keeps the welder invariant over the keys of the first t + 1 corners, and keeps the dictionary consistent with the unique lists |
| Welder.CreateOptimizedMeshData | Assets/Scripts/LoaderModule.cs:427-474 | exactly 3 triangle entries per face, each naming a unique vertex (below the unique count); the unique lists have equal length; each corner's vertex matches its key; no two unique vertices match; every unique vertex is used by some corner; a corner that an earlier corner's vertex matches reuses an index already handed out; the corner that first uses an index stores its own resolved attributes there, and that index is one more than every earlier index with none skipped (index = previous count) |
| Welder.HitFirstUse | Assets/Scripts/LoaderModule.cs:451-454 | a hit appends an index already in the triangle list, so no first use changes and every stored attribute stays as the corner that opened it left it |
| Welder.MissFirstUse | Assets/Scripts/LoaderModule.cs:455-462 | a miss opens index `uniqueVertices.Count`, above every earlier index with none skipped, and stores exactly the missing corner's resolved position, normal and uv there |
| Welder.FirstCornerOpensVertexZero | Assets/Scripts/LoaderModule.cs:436-462 | the first welded corner always gets index 0, and unique vertex 0 holds that corner's own resolved attributes |
| Welder.WeldIdempotent | Assets/Scripts/LoaderModule.cs:427-474 | welding is idempotent: any buffer that satisfies the welder invariant for the keys of a welded buffer's own entries (each entry's stored attributes) is that same buffer, with the same triangle entries and the same unique position, normal and uv lists |
| Welder.ReweldKeys | Assets/Scripts/LoaderModule.cs:436-447 | feeding a welded buffer back to the welder, with its unique lists as the raw lists and each entry `u` as the corner `u/u/u`, resolves every corner to the attributes stored at the unique vertex it names |
| Welder.Reweld | Assets/Scripts/LoaderModule.cs:427-474 | running CreateOptimizedMeshData on a welded buffer read back that way returns exactly that buffer |
| Welder.IdenticalCornersShare | Assets/Scripts/LoaderModule.cs:449-454 | a corner whose resolved position, normal and uv equal an earlier corner's reuses an index already present in the triangle list |

## Left out

- Scanner.ParseInt: the result is an unbounded integer. The 32-bit overflow of `result * 10 + digit` on long digit runs is not modelled.
- Scanner.ParseFloat: exact real arithmetic replaces single-precision floats. The rounding of the accumulation and of the `0.1f` multiplier is not modelled, nor is negative zero.
- Scanner.IsDigit: only the ASCII digits `0`–`9` count. `char.IsDigit` accepts every Unicode decimal digit, and `line[index] - '0'` would then give values outside 0–9.
- ObjParser.ParseLinesDivergesIff: because IsDigit accepts only ASCII digits, the model's None verdict is wider than the source's hang. A face line holding a non-ASCII decimal digit makes the whole file None in the model. The source consumes that digit and loads the file.
- ObjParser.LoadAssetContents: the same widening of the None verdict applies to the whole LoadAsset result.
- ObjParser.ParseObjLine: a Dafny string is a sequence of Unicode scalar values, while a .NET string is a sequence of UTF-16 code units. A character outside the Basic Multilingual Plane is one element in the model and two in the source. This matters where the dispatcher uses fixed columns:
  - In `o\U{1F600}`, the source sees length 3, which passes `Length > 2`, and names the new object with a lone low surrogate. The model sees length 2 and leaves the state unchanged.
  - In `o\U{1F600}x`, the source's name is the low surrogate followed by `x`. The model's name is `x`.
  - In `vn\U{1F600}1 2 3` (and likewise `vt`), the source's scan starts at column 3 on the low surrogate and reads zeros. The model's scan starts on `1`.
  - Lines that check a space at column 1 (`v ` and `f `) are unaffected.
- FaceParser.ParseFace: the source's corner loop never ends on a character other than a space, a digit or `/`, for example `-` in a relative index or a letter. The model returns None there, and LoadAsset then yields None for the whole file. The model does not reproduce the hang or the unbounded growth of the corner list.
- Welder.MakeKey: the hash is an arbitrary function parameter of the effective threshold and the attributes. The `(int)(x / threshold)` truncation, the prime multipliers, the shifts and the `unchecked` 32-bit wrap-around are not modelled. Every property holds for any hash.
- Welder.Close: the `Mathf.Abs` comparisons are over reals with the tolerance 0.001. Single-precision rounding is not modelled.
- Welder.WeldCorner: when several stored keys match a corner, Equals not being transitive, the .NET dictionary's choice among them depends on its bucket order. The model allows any matching entry, so its contract is weaker than any particular dictionary implementation.
- File access and error handling in LoadAsset are not modelled. This covers the file-existence test, the stream reader, the try/catch and the error log. The file is given as its sequence of lines.
- Engine glue whose APIs are not part of this model:
  - material set-up and the shader lookup (`InitDefaultMaterial`);
  - `CreateGameObjectsOptimized`;
  - `AttachMeshToGameObject`, which builds the mesh and recalculates normals;
  - the `OnLoadCompleted` callback.
- `Assets/Scripts/AssetLoader.cs` is not part of this model. It handles asynchronous orchestration, directory scanning, timing and scene parenting.
- The `m` and `u` material cases are modelled as the no-ops they are in the source. The material library itself is not implemented there.

=== FILE: face.dfy ===
/** The `f` line parser: corners of the form v, v/t, v//n and v/t/n are read
    left to right, stored as 0-based indices with -1 for "absent", and the
    polygon is split into a fan of triangles around its first corner. */
module FaceParser {
  import opened MeshTypes
  import opened Scanner

  /** The characters the corner loop can step over. */
  predicate FaceChar(c: char)
  {
    c == ' ' || c == '/' || IsDigit(c)
  }

  /** How a scanned 1-based index is stored: k > 0 becomes k - 1, anything
      else (the scanner yields 0 when there is no number) becomes -1. */
  function StoredIndex(num: int): int
  {
    if num > 0 then num - 1 else -1
  }

  // ---------------------------------------------------------------------
  // One corner
  // ---------------------------------------------------------------------

  /** Reads one corner starting at a non-space character: the vertex number,
      then, after a '/', the uv and normal parts. */
  function ParseCorner(line: string, i: nat): (r: Scan<MeshVertex>)
    requires i < |line| && line[i] != ' '
    ensures i <= r.next <= |line|
    ensures r.next > i <==> FaceChar(line[i])
    ensures forall k :: i <= k < r.next ==> FaceChar(line[k])
    ensures r.next < |line| ==> !IsDigit(line[r.next])
    ensures r.next == i ==> r.value == MeshVertex(-1, -1, -1)
    ensures WellFormedCorner(r.value)
  {
    var v := ParseInt(line, i);
    if v.next < |line| && line[v.next] == '/' then
      ParseUvPart(line, v.next + 1, StoredIndex(v.value))
    else
      Scan(MeshVertex(StoredIndex(v.value), -1, -1), v.next)
  }

  /** After the first '/': the uv number is read unless the next character
      is a second '/' (an empty run reads as 0 and is stored as -1). */
  function ParseUvPart(line: string, j: nat, vertex: int): (r: Scan<MeshVertex>)
    requires 0 < j <= |line| && vertex >= -1
    ensures j <= r.next <= |line|
    ensures forall k :: j <= k < r.next ==> FaceChar(line[k])
    ensures r.next < |line| ==> !IsDigit(line[r.next])
    ensures r.value.vertexIndex == vertex
    ensures r.value.uvIndex != -1 ==> j < |line| && line[j] != '/'
    ensures WellFormedCorner(r.value)
  {
    var uv := if j < |line| && line[j] != '/' then ParseInt(line, j) else Scan(0, j);
    ParseNormalPart(line, uv.next, vertex, StoredIndex(uv.value))
  }

  /** After the uv part: a '/' and then the normal number, read only when a
      digit follows the '/'. */
  function ParseNormalPart(line: string, k: nat, vertex: int, uv: int): (r: Scan<MeshVertex>)
    requires k <= |line| && vertex >= -1 && uv >= -1
    requires k < |line| ==> !IsDigit(line[k])
    ensures k <= r.next <= |line|
    ensures forall p :: k <= p < r.next ==> FaceChar(line[p])
    ensures r.next < |line| ==> !IsDigit(line[r.next])
    ensures r.value.vertexIndex == vertex && r.value.uvIndex == uv
    ensures r.value.normalIndex != -1 ==> k + 1 < |line| && line[k] == '/' && IsDigit(line[k + 1])
    ensures r.next > k ==> line[k] == '/'
    ensures WellFormedCorner(r.value)
  {
    if k < |line| && line[k] == '/' then
      var m := k + 1;
      if m < |line| && IsDigit(line[m]) then
        var n := ParseInt(line, m);
        Scan(MeshVertex(vertex, uv, StoredIndex(n.value)), n.next)
      else
        Scan(MeshVertex(vertex, uv, -1), m)
    else
      Scan(MeshVertex(vertex, uv, -1), k)
  }

  // ---------------------------------------------------------------------
  // The corner loop
  // ---------------------------------------------------------------------

  /** The corners of the rest of a face line from cursor i. The source loop
      never ends when a corner makes no progress (a character other than
      ' ', '/' or a digit); that case is None. */
  function FaceCorners(line: string, i: nat): (r: Option<seq<MeshVertex>>)
    requires i <= |line|
    ensures r.Some? ==> |r.value| <= |line| - i
    ensures r.Some? ==> forall k :: 0 <= k < |r.value| ==> WellFormedCorner(r.value[k])
    decreases |line| - i
  {
    var s := SkipSpaces(line, i);
    if s >= |line| then Some([])
    else
      var c := ParseCorner(line, s);
      if c.next == s then None
      else
        match FaceCorners(line, c.next)
        case None => None
        case Some(rest) => Some([c.value] + rest)
  }

  /** The loop gets stuck exactly when the rest of the line holds a
      character the corner scanner cannot step over. */
  lemma {:induction false} FaceCornersStuckIff(line: string, i: nat)
    requires i <= |line|
    ensures FaceCorners(line, i).None? <==> exists k :: i <= k < |line| && !FaceChar(line[k])
    decreases |line| - i
  {
    var s := SkipSpaces(line, i);
    if s < |line| {
      var c := ParseCorner(line, s);
      if c.next != s {
        FaceCornersStuckIff(line, c.next);
        if exists k :: i <= k < |line| && !FaceChar(line[k]) {
          var k :| i <= k < |line| && !FaceChar(line[k]);
          assert c.next <= k;
        }
      }
    } else {
      assert forall k :: i <= k < |line| ==> line[k] == ' ';
    }
  }

  // ---------------------------------------------------------------------
  // Fan triangulation
  // ---------------------------------------------------------------------

  /** The fan around first over the chain rest: one triangle per pair of
      neighbours in rest. */
  function FanFrom(first: MeshVertex, rest: seq<MeshVertex>): (r: seq<ObjFace>)
    ensures |rest| >= 2 ==> |r| == |rest| - 1
    ensures |rest| < 2 ==> r == []
    ensures forall k :: 0 <= k < |r| ==> r[k] == ObjFace(first, rest[k], rest[k + 1])
  {
    if |rest| < 2 then []
    else [ObjFace(first, rest[0], rest[1])] + FanFrom(first, rest[1..])
  }

  /** Fan triangulation of a polygon: n >= 3 corners give n - 2 triangles,
      the k-th being (c0, c(k+1), c(k+2)); fewer corners give none. */
  function Triangulate(cs: seq<MeshVertex>): (r: seq<ObjFace>)
    ensures |cs| >= 3 ==> |r| == |cs| - 2
    ensures |cs| < 3 ==> r == []
    ensures forall k :: 0 <= k < |r| ==> r[k] == ObjFace(cs[0], cs[k + 1], cs[k + 2])
  {
    if |cs| < 3 then [] else FanFrom(cs[0], cs[1..])
  }

  /** Every triangle of the fan uses only the polygon's corners, and every
      corner is used by some triangle. */
  lemma TriangulateCoversCorners(cs: seq<MeshVertex>)
    requires |cs| >= 3
    ensures forall k :: 0 <= k < |cs| ==>
      exists t :: 0 <= t < |Triangulate(cs)| && cs[k] in {Triangulate(cs)[t].v0, Triangulate(cs)[t].v1, Triangulate(cs)[t].v2}
  {
    var r := Triangulate(cs);
    forall k | 0 <= k < |cs|
      ensures exists t :: 0 <= t < |r| && cs[k] in {r[t].v0, r[t].v1, r[t].v2}
    {
      var t := if k == 0 then 0 else k - 1;
      if t == |r| {
        t := t - 1;
      }
      assert cs[k] in {r[t].v0, r[t].v1, r[t].v2};
    }
  }

  // ---------------------------------------------------------------------
  // The face line
  // ---------------------------------------------------------------------

  /** ParseFace: the corners after "f " fan-triangulated and appended to the
      faces of the current object; None when the corner loop would never
      end. */
  function ParseFace(line: string, faces: seq<ObjFace>): (r: Option<seq<ObjFace>>)
    requires |line| >= 2
    ensures r.None? <==> exists k :: 2 <= k < |line| && !FaceChar(line[k])
    ensures r.Some? ==> |faces| <= |r.value| && r.value[..|faces|] == faces
    ensures r.Some? ==> |r.value| - |faces| <= |line|
  {
    FaceCornersStuckIff(line, 2);
    match FaceCorners(line, 2)
    case None => None
    case Some(cs) =>
      var added := Triangulate(cs);
      assert (faces + added)[..|faces|] == faces;
      Some(faces + added)
  }

  // ---------------------------------------------------------------------
  // Read-back of written faces
  // ---------------------------------------------------------------------

  /** The canonical OBJ spelling of a corner: "v", "v/t", "v//n" or "v/t/n"
      with 1-based numbers, an absent uv or normal omitted, and an absent
      vertex written as 0. */
  function CornerText(c: MeshVertex): string
    requires WellFormedCorner(c)
  {
    DecimalText(c.vertexIndex + 1) + SlashText(c)
  }

  /** The part of a corner's spelling after the vertex number. */
  function SlashText(c: MeshVertex): string
    requires WellFormedCorner(c)
  {
    if c.uvIndex < 0 && c.normalIndex < 0 then ""
    else "/" + UvText(c) + NormalText(c)
  }

  function UvText(c: MeshVertex): string
    requires WellFormedCorner(c)
  {
    if c.uvIndex >= 0 then DecimalText(c.uvIndex + 1) else ""
  }

  function NormalText(c: MeshVertex): string
    requires WellFormedCorner(c)
  {
    if c.normalIndex >= 0 then "/" + DecimalText(c.normalIndex + 1) else ""
  }

  /** Reading a number written at position at. */
  lemma ReadIndexAt(line: string, at: nat, idx: int)
    requires idx >= -1 && Placed(line, at, DecimalText(idx + 1))
    requires var e := at + |DecimalText(idx + 1)|; e < |line| ==> !IsDigit(line[e])
    ensures at < |line| && IsDigit(line[at])
    ensures ParseInt(line, at) == Scan(idx + 1, at + |DecimalText(idx + 1)|)
    ensures StoredIndex(idx + 1) == idx
  {
    var t := DecimalText(idx + 1);
    assert line[at + 0] == t[0];
    ParseIntReadsPlaced(line, at, t);
  }

  /** A corner's spelling ends with a space or the end of the line. */
  predicate EndsAt(line: string, e: nat)
  {
    e <= |line| && (e < |line| ==> line[e] == ' ')
  }

  // Each read-back below is split in two: a layout lemma that says where
  // the pieces of a spelling sit on the line, and a parse lemma that works
  // from those positions alone.

  /** The normal part, from the positions of its pieces. */
  lemma ParseNormalPartAt(line: string, k: nat, c: MeshVertex, e: nat)
    requires WellFormedCorner(c) && k <= |line|
    requires k < |line| ==> !IsDigit(line[k])
    requires || (c.normalIndex >= 0 && k + 1 < |line| && line[k] == '/' && IsDigit(line[k + 1])
                 && ParseInt(line, k + 1) == Scan(c.normalIndex + 1, e))
             || (c.normalIndex < 0 && e == k && (k < |line| ==> line[k] == ' '))
    ensures ParseNormalPart(line, k, c.vertexIndex, c.uvIndex) == Scan(c, e)
  {
  }

  /** The normal part reads back its spelling. */
  lemma ParseNormalPartReadsText(line: string, k: nat, c: MeshVertex)
    requires WellFormedCorner(c) && Placed(line, k, NormalText(c))
    requires EndsAt(line, k + |NormalText(c)|)
    ensures k < |line| ==> !IsDigit(line[k])
    ensures ParseNormalPart(line, k, c.vertexIndex, c.uvIndex) == Scan(c, k + |NormalText(c)|)
  {
    var e := k + |NormalText(c)|;
    assert k < |line| ==> !IsDigit(line[k]) by {
      if k < |line| && c.normalIndex >= 0 {
        assert line[k + 0] == NormalText(c)[0];
      }
    }
    assert || (c.normalIndex >= 0 && k + 1 < |line| && line[k] == '/' && IsDigit(line[k + 1])
               && ParseInt(line, k + 1) == Scan(c.normalIndex + 1, e))
           || (c.normalIndex < 0 && e == k && (k < |line| ==> line[k] == ' ')) by {
      if c.normalIndex >= 0 {
        var n := NormalText(c);
        var d := DecimalText(c.normalIndex + 1);
        PlacedConcat("/", d);
        PlacedWithin(line, k, n, 1, d);
        assert line[k + 0] == n[0];
        ReadIndexAt(line, k + 1, c.normalIndex);
      }
    }
    ParseNormalPartAt(line, k, c, e);
  }

  /** The uv part, from the positions of its pieces. */
  lemma ParseUvPartAt(line: string, j: nat, c: MeshVertex, k: nat, e: nat)
    requires WellFormedCorner(c) && 0 < j <= |line|
    requires || (c.uvIndex >= 0 && j < |line| && line[j] != '/'
                 && ParseInt(line, j) == Scan(c.uvIndex + 1, k))
             || (c.uvIndex < 0 && k == j && (j < |line| ==> line[j] == '/'))
    requires k <= |line| && (k < |line| ==> !IsDigit(line[k]))
    requires ParseNormalPart(line, k, c.vertexIndex, c.uvIndex) == Scan(c, e)
    ensures ParseUvPart(line, j, c.vertexIndex) == Scan(c, e)
  {
  }

  /** Where the uv and normal texts sit. */
  lemma UvPartLayout(line: string, j: nat, c: MeshVertex)
    requires WellFormedCorner(c) && Placed(line, j, UvText(c) + NormalText(c))
    ensures Placed(line, j, UvText(c)) && Placed(line, j + |UvText(c)|, NormalText(c))
    ensures c.uvIndex < 0 && c.normalIndex >= 0 ==> j < |line| && line[j] == '/'
  {
    var u := UvText(c);
    var n := NormalText(c);
    PlacedConcat(u, n);
    PlacedWithin(line, j, u + n, 0, u);
    PlacedWithin(line, j, u + n, |u|, n);
    if c.uvIndex < 0 && c.normalIndex >= 0 {
      assert line[j + 0] == n[0];
    }
  }

  /** The uv and normal parts read back their spelling. */
  lemma ParseUvPartReadsText(line: string, j: nat, c: MeshVertex, e: nat)
    requires WellFormedCorner(c) && (c.uvIndex >= 0 || c.normalIndex >= 0) && 0 < j
    requires Placed(line, j, UvText(c)) && Placed(line, j + |UvText(c)|, NormalText(c))
    requires c.uvIndex < 0 ==> j < |line| && line[j] == '/'
    requires e == j + |UvText(c)| + |NormalText(c)| && EndsAt(line, e)
    ensures ParseUvPart(line, j, c.vertexIndex) == Scan(c, e)
  {
    var k := j + |UvText(c)|;
    assert ParseNormalPart(line, k, c.vertexIndex, c.uvIndex) == Scan(c, e)
        && (k < |line| ==> !IsDigit(line[k])) by {
      ParseNormalPartReadsText(line, k, c);
    }
    assert || (c.uvIndex >= 0 && j < |line| && line[j] != '/'
               && ParseInt(line, j) == Scan(c.uvIndex + 1, k))
           || (c.uvIndex < 0 && k == j && (j < |line| ==> line[j] == '/')) by {
      if c.uvIndex >= 0 {
        ReadIndexAt(line, j, c.uvIndex);
      }
    }
    ParseUvPartAt(line, j, c, k, e);
  }

  /** A corner with a '/' after its vertex number, from the positions of
      its pieces. */
  lemma ParseSlashCornerAt(line: string, i: nat, c: MeshVertex, j: nat, e: nat)
    requires WellFormedCorner(c) && i < |line| && line[i] != ' '
    requires ParseInt(line, i) == Scan(c.vertexIndex + 1, j)
    requires j < |line| && line[j] == '/' && ParseUvPart(line, j + 1, c.vertexIndex) == Scan(c, e)
    ensures ParseCorner(line, i) == Scan(c, e)
  {
    assert StoredIndex(c.vertexIndex + 1) == c.vertexIndex;
  }

  /** A corner that is only a vertex number, from where the number ends. */
  lemma ParsePlainCornerAt(line: string, i: nat, c: MeshVertex, e: nat)
    requires WellFormedCorner(c) && i < |line| && line[i] != ' '
    requires ParseInt(line, i) == Scan(c.vertexIndex + 1, e)
    requires c.uvIndex < 0 && c.normalIndex < 0 && (e < |line| ==> line[e] == ' ')
    ensures ParseCorner(line, i) == Scan(c, e)
  {
    assert StoredIndex(c.vertexIndex + 1) == c.vertexIndex;
  }

  /** Where the vertex number and the rest of a corner's spelling sit. */
  lemma CornerLayout(line: string, i: nat, c: MeshVertex)
    requires WellFormedCorner(c) && Placed(line, i, CornerText(c))
    ensures var v := DecimalText(c.vertexIndex + 1);
      && Placed(line, i, v)
      && (|SlashText(c)| > 0 ==>
            && line[i + |v|] == '/'
            && Placed(line, i + |v| + 1, UvText(c))
            && Placed(line, i + |v| + 1 + |UvText(c)|, NormalText(c))
            && (c.uvIndex < 0 ==> line[i + |v| + 1] == '/')
            && |CornerText(c)| == |v| + 1 + |UvText(c)| + |NormalText(c)|
            && (c.uvIndex >= 0 || c.normalIndex >= 0))
      && (|SlashText(c)| == 0 ==> |CornerText(c)| == |v| && c.uvIndex < 0 && c.normalIndex < 0)
  {
    var v := DecimalText(c.vertexIndex + 1);
    var tail := SlashText(c);
    assert Placed(line, i, v) && Placed(line, i + |v|, tail) && |CornerText(c)| == |v| + |tail| by {
      PlacedConcat(v, tail);
      PlacedWithin(line, i, CornerText(c), 0, v);
      PlacedWithin(line, i, CornerText(c), |v|, tail);
    }
    if |tail| > 0 {
      SlashLayout(line, i + |v|, c);
    }
  }

  /** Where the uv and normal texts sit after the first '/'. */
  lemma SlashLayout(line: string, j: nat, c: MeshVertex)
    requires WellFormedCorner(c) && |SlashText(c)| > 0 && Placed(line, j, SlashText(c))
    ensures line[j] == '/'
    ensures Placed(line, j + 1, UvText(c)) && Placed(line, j + 1 + |UvText(c)|, NormalText(c))
    ensures c.uvIndex < 0 ==> j + 1 < |line| && line[j + 1] == '/'
    ensures |SlashText(c)| == 1 + |UvText(c)| + |NormalText(c)|
    ensures c.uvIndex >= 0 || c.normalIndex >= 0
  {
    var un := UvText(c) + NormalText(c);
    assert line[j] == '/' && Placed(line, j + 1, un) && |SlashText(c)| == 1 + |un| by {
      var tail := SlashText(c);
      assert tail == "/" + un;
      PlacedConcat("/", un);
      PlacedWithin(line, j, tail, 1, un);
      assert line[j + 0] == tail[0];
    }
    UvPartLayout(line, j + 1, c);
  }

  /** A corner spelled by its vertex number alone is read back. */
  lemma ParsePlainCornerReads(line: string, i: nat, c: MeshVertex, e: nat)
    requires WellFormedCorner(c) && c.uvIndex < 0 && c.normalIndex < 0
    requires Placed(line, i, DecimalText(c.vertexIndex + 1))
    requires e == i + |DecimalText(c.vertexIndex + 1)| && EndsAt(line, e)
    ensures i < |line| && line[i] != ' '
    ensures ParseCorner(line, i) == Scan(c, e)
  {
    ReadIndexAt(line, i, c.vertexIndex);
    ParsePlainCornerAt(line, i, c, e);
  }

  /** A corner spelled with a '/' after its vertex number is read back. */
  lemma ParseSlashCornerReads(line: string, i: nat, c: MeshVertex, e: nat)
    requires WellFormedCorner(c) && (c.uvIndex >= 0 || c.normalIndex >= 0)
    requires var j := i + |DecimalText(c.vertexIndex + 1)|;
      && Placed(line, i, DecimalText(c.vertexIndex + 1))
      && j < |line| && line[j] == '/'
      && Placed(line, j + 1, UvText(c)) && Placed(line, j + 1 + |UvText(c)|, NormalText(c))
      && (c.uvIndex < 0 ==> j + 1 < |line| && line[j + 1] == '/')
      && e == j + 1 + |UvText(c)| + |NormalText(c)|
    requires EndsAt(line, e)
    ensures i < |line| && line[i] != ' '
    ensures ParseCorner(line, i) == Scan(c, e)
  {
    var j := i + |DecimalText(c.vertexIndex + 1)|;
    assert i < |line| && line[i] != ' ' && ParseInt(line, i) == Scan(c.vertexIndex + 1, j) by {
      ReadIndexAt(line, i, c.vertexIndex);
    }
    SlashTailReads(line, i, c, j, e);
  }

  /** The part of a slash corner after its vertex index, once the index has
      been read up to the first '/'. */
  lemma SlashTailReads(line: string, i: nat, c: MeshVertex, j: nat, e: nat)
    requires WellFormedCorner(c) && (c.uvIndex >= 0 || c.normalIndex >= 0)
    requires i < |line| && line[i] != ' ' && ParseInt(line, i) == Scan(c.vertexIndex + 1, j)
    requires j < |line| && line[j] == '/'
    requires Placed(line, j + 1, UvText(c)) && Placed(line, j + 1 + |UvText(c)|, NormalText(c))
    requires c.uvIndex < 0 ==> j + 1 < |line| && line[j + 1] == '/'
    requires e == j + 1 + |UvText(c)| + |NormalText(c)| && EndsAt(line, e)
    ensures ParseCorner(line, i) == Scan(c, e)
  {
    ParseUvPartReadsText(line, j + 1, c, e);
    ParseSlashCornerAt(line, i, c, j, e);
  }

  /** ParseCorner reads back the spelling of any well-formed corner that is
      followed by a space or the end of the line. */
  lemma ParseCornerReadsText(line: string, i: nat, c: MeshVertex)
    requires WellFormedCorner(c) && Placed(line, i, CornerText(c))
    requires EndsAt(line, i + |CornerText(c)|)
    ensures i < |line| && line[i] != ' '
    ensures ParseCorner(line, i) == Scan(c, i + |CornerText(c)|)
  {
    CornerLayout(line, i, c);
    if |SlashText(c)| > 0 {
      ParseSlashCornerReads(line, i, c, i + |CornerText(c)|);
    } else {
      ParsePlainCornerReads(line, i, c, i + |CornerText(c)|);
    }
  }

  /** The spelling of a corner list: each corner preceded by one space. */
  function CornersText(cs: seq<MeshVertex>): string
    requires forall k :: 0 <= k < |cs| ==> WellFormedCorner(cs[k])
  {
    if |cs| == 0 then "" else " " + CornerText(cs[0]) + CornersText(cs[1..])
  }

  /** Where the first corner and the rest of a corner list's spelling sit. */
  lemma CornersLayout(line: string, i: nat, cs: seq<MeshVertex>)
    requires |cs| > 0 && forall k :: 0 <= k < |cs| ==> WellFormedCorner(cs[k])
    requires Placed(line, i, CornersText(cs)) && i + |CornersText(cs)| == |line|
    ensures var j := i + 1 + |CornerText(cs[0])|;
      && line[i] == ' '
      && Placed(line, i + 1, CornerText(cs[0]))
      && Placed(line, j, CornersText(cs[1..]))
      && j + |CornersText(cs[1..])| == |line|
      && EndsAt(line, j)
  {
    var head := " " + CornerText(cs[0]);
    var rest := CornersText(cs[1..]);
    var j := i + 1 + |CornerText(cs[0])|;
    PlacedConcat(head, rest);
    PlacedConcat(" ", CornerText(cs[0]));
    PlacedWithin(line, i, CornersText(cs), 0, head);
    PlacedWithin(line, i, head, 1, CornerText(cs[0]));
    PlacedWithin(line, i, CornersText(cs), |head|, rest);
    assert line[i + 0] == head[0];
    if j < |line| {
      assert |cs[1..]| > 0;
      assert line[j + 0] == rest[0];
    }
  }

  /** One round of the corner loop, from the positions of its pieces. */
  lemma FaceCornersStep(line: string, i: nat, j: nat, cs: seq<MeshVertex>)
    requires |cs| > 0 && i + 1 < j <= |line| && line[i] == ' ' && line[i + 1] != ' '
    requires ParseCorner(line, i + 1) == Scan(cs[0], j)
    requires FaceCorners(line, j) == Some(cs[1..])
    ensures FaceCorners(line, i) == Some(cs)
  {
    SkipSpacesAt(line, i, i + 1);
    assert FaceCorners(line, i) == Some([cs[0]] + cs[1..]);
    assert [cs[0]] + cs[1..] == cs;
  }

  /** The corner loop reads back a written corner list that runs to the end
      of the line. */
  lemma {:induction false} FaceCornersReadsText(line: string, i: nat, cs: seq<MeshVertex>)
    requires forall k :: 0 <= k < |cs| ==> WellFormedCorner(cs[k])
    requires Placed(line, i, CornersText(cs)) && i + |CornersText(cs)| == |line|
    ensures FaceCorners(line, i) == Some(cs)
    decreases |cs|
  {
    if |cs| == 0 {
      SkipSpacesAt(line, i, i);
    } else {
      var j := i + 1 + |CornerText(cs[0])|;
      CornersLayout(line, i, cs);
      assert line[i + 1] != ' ' && ParseCorner(line, i + 1) == Scan(cs[0], j) by {
        ParseCornerReadsText(line, i + 1, cs[0]);
      }
      assert FaceCorners(line, j) == Some(cs[1..]) by {
        FaceCornersReadsText(line, j, cs[1..]);
      }
      FaceCornersStep(line, i, j, cs);
    }
  }

  /** The spelling of a face line. */
  function FaceLine(cs: seq<MeshVertex>): string
    requires forall k :: 0 <= k < |cs| ==> WellFormedCorner(cs[k])
  {
    "f" + CornersText(cs)
  }

  /** Parsing a written face line appends exactly the fan of its corners. */
  lemma ParseFaceReadsText(cs: seq<MeshVertex>, faces: seq<ObjFace>)
    requires |cs| > 0 && forall k :: 0 <= k < |cs| ==> WellFormedCorner(cs[k])
    ensures |FaceLine(cs)| >= 2
    ensures ParseFace(FaceLine(cs), faces) == Some(faces + Triangulate(cs))
  {
    var line := FaceLine(cs);
    PlacedConcat("f", CornersText(cs));
    assert line[1] == ' ' by {
      assert line[1 + 0] == CornersText(cs)[0];
    }
    FaceCornersReadsText(line, 1, cs);
    assert FaceCorners(line, 2) == Some(cs) by {
      var s := SkipSpaces(line, 1);
      assert s == 2 by {
        SkipSpacesAt(line, 1, 2);
      }
      assert FaceCorners(line, 1) == FaceCorners(line, 2);
    }
  }
}

=== FILE: mesh_types.dfy ===
/** Plain data shared by the OBJ loader: vectors, face corners, triangles,
    object groups and the optimized mesh buffer. Engine vectors are modelled
    over `real`; IEEE rounding is not modelled. */
module MeshTypes {

  datatype Option<+T> = None | Some(value: T)

  datatype Vec3 = Vec3(x: real, y: real, z: real)
  datatype Vec2 = Vec2(x: real, y: real)

  /** The engine constants the welder falls back on. */
  const Zero3: Vec3 := Vec3(0.0, 0.0, 0.0)
  const Up: Vec3 := Vec3(0.0, 1.0, 0.0)
  const Zero2: Vec2 := Vec2(0.0, 0.0)

  /** One face corner: 0-based indices into the raw vertex, uv and normal
      lists, with -1 meaning "absent". */
  datatype MeshVertex = MeshVertex(vertexIndex: int, uvIndex: int, normalIndex: int)

  /** Every index a corner can hold is a 0-based index or the -1 sentinel. */
  predicate WellFormedCorner(c: MeshVertex)
  {
    c.vertexIndex >= -1 && c.uvIndex >= -1 && c.normalIndex >= -1
  }

  /** A triangle after fan triangulation (the source keeps an array of three). */
  datatype ObjFace = ObjFace(v0: MeshVertex, v1: MeshVertex, v2: MeshVertex)

  /** A named object or group and the triangles that belong to it. */
  datatype ObjObject = ObjObject(name: string, faces: seq<ObjFace>)

  /** The welded, render-ready buffer of one object. */
  datatype OptimizedMeshData = OptimizedMeshData(
    vertices: seq<Vec3>,
    normals: seq<Vec3>,
    uvs: seq<Vec2>,
    triangles: seq<int>)
}

=== FILE: obj_parser.dfy ===
/** The per-line dispatcher of the OBJ loader and the fold over a file's
    lines. The loader's mutable lists and its `ref` current object become a
    ParseState record that each line maps to a new state. */
module ObjParser {
  import opened MeshTypes
  import opened Scanner
  import opened FaceParser

  /** Everything the line loop accumulates: the raw vertex, normal and uv
      lists, the closed objects, and the object being filled. */
  datatype ParseState = ParseState(
    vertices: seq<Vec3>,
    normals: seq<Vec3>,
    uvs: seq<Vec2>,
    objects: seq<ObjObject>,
    current: ObjObject)

  /** The state before the first line: a faceless current object named after the file. */
  function InitialState(fileName: string): ParseState
  {
    ParseState([], [], [], [], ObjObject(fileName, []))
  }

  // ---------------------------------------------------------------------
  // Line classes
  // ---------------------------------------------------------------------

  /** Lines the loader passes to the dispatcher: non-empty and not a
      comment. */
  predicate Kept(line: string)
  {
    |line| > 0 && line[0] != '#'
  }

  predicate IsVertexLine(line: string)
  {
    |line| >= 2 && line[0] == 'v' && line[1] == ' '
  }

  predicate IsNormalLine(line: string)
  {
    |line| >= 2 && line[0] == 'v' && line[1] == 'n'
  }

  predicate IsUvLine(line: string)
  {
    |line| >= 2 && line[0] == 'v' && line[1] == 't'
  }

  predicate IsFaceLine(line: string)
  {
    |line| >= 2 && line[0] == 'f' && line[1] == ' '
  }

  predicate IsGroupLine(line: string)
  {
    |line| > 2 && (line[0] == 'o' || line[0] == 'g')
  }

  /** A face line whose corner loop would never end. */
  predicate Diverges(line: string)
  {
    IsFaceLine(line) && exists k :: 2 <= k < |line| && !FaceChar(line[k])
  }

  // ---------------------------------------------------------------------
  // Element lines
  // ---------------------------------------------------------------------

  /** n floats read one after the other, each scan starting where the
      previous one stopped. */
  function ReadFloats(line: string, i: nat, n: nat): (r: seq<real>)
    ensures |r| == n
    ensures n > 0 ==> r[0] == ParseFloat(line, i).value
    decreases n
  {
    if n == 0 then []
    else
      var x := ParseFloat(line, i);
      [x.value] + ReadFloats(line, x.next, n - 1)
  }

  /** Three consecutive floats from cursor start: each scan starts where
      the previous one stopped. */
  function ReadVec3(line: string, start: nat): (v: Vec3)
    ensures var x := ParseFloat(line, start);
      var y := ParseFloat(line, x.next);
      v == Vec3(x.value, y.value, ParseFloat(line, y.next).value)
  {
    var xs := ReadFloats(line, start, 3);
    Vec3(xs[0], xs[1], xs[2])
  }

  /** Two consecutive floats from cursor start: the second scan starts
      where the first stopped. */
  function ReadVec2(line: string, start: nat): (v: Vec2)
    ensures var x := ParseFloat(line, start);
      v == Vec2(x.value, ParseFloat(line, x.next).value)
  {
    var xs := ReadFloats(line, start, 2);
    Vec2(xs[0], xs[1])
  }

  /** ParseVertex: the position after "v ". */
  function ParseVertex(line: string, vertices: seq<Vec3>): (r: seq<Vec3>)
    ensures |r| == |vertices| + 1 && r[..|vertices|] == vertices
    ensures r[|vertices|] == ReadVec3(line, 2)
  {
    vertices + [ReadVec3(line, 2)]
  }

  /** ParseNormal: the normal after "vn ". */
  function ParseNormal(line: string, normals: seq<Vec3>): (r: seq<Vec3>)
    ensures |r| == |normals| + 1 && r[..|normals|] == normals
    ensures r[|normals|] == ReadVec3(line, 3)
  {
    normals + [ReadVec3(line, 3)]
  }

  /** ParseUV: the texture coordinate after "vt ". */
  function ParseUV(line: string, uvs: seq<Vec2>): (r: seq<Vec2>)
    ensures |r| == |uvs| + 1 && r[..|uvs|] == uvs
    ensures r[|uvs|] == ReadVec2(line, 3)
  {
    uvs + [ReadVec2(line, 3)]
  }

  // ---------------------------------------------------------------------
  // Groups
  // ---------------------------------------------------------------------

  /** The end of the name: trailing spaces dropped, never before b. */
  function NameEnd(line: string, b: nat, e: nat): (r: nat)
    requires b <= e <= |line|
    ensures b <= r <= e
    ensures forall k :: r <= k < e ==> line[k] == ' '
    ensures r > b ==> line[r - 1] != ' '
    decreases e
  {
    if e > b && line[e - 1] == ' ' then NameEnd(line, b, e - 1) else e
  }

  /** ExtractName: the text from start with spaces trimmed from both ends. */
  function ExtractName(line: string, start: nat): (name: string)
    requires start <= |line|
    ensures |name| <= |line| - start
    ensures |name| > 0 ==> name[0] != ' ' && name[|name| - 1] != ' '
    ensures |name| == 0 <==> forall k :: start <= k < |line| ==> line[k] == ' '
  {
    var b := SkipSpaces(line, start);
    var e := NameEnd(line, b, |line|);
    line[b..e]
  }

  /** AddNewObject: the current object is closed (kept only if it has
      faces) and a new, empty one named by the rest of the line begins. */
  function AddNewObject(st: ParseState, line: string): (r: ParseState)
    requires |line| >= 2
    ensures |st.current.faces| > 0 ==> r.objects == st.objects + [st.current]
    ensures |st.current.faces| == 0 ==> r.objects == st.objects
    ensures r.current.faces == [] && r.current.name == ExtractName(line, 2)
    ensures r.vertices == st.vertices && r.normals == st.normals && r.uvs == st.uvs
  {
    var objects := if |st.current.faces| > 0 then st.objects + [st.current] else st.objects;
    st.(objects := objects, current := ObjObject(ExtractName(line, 2), []))
  }

  // ---------------------------------------------------------------------
  // The dispatcher
  // ---------------------------------------------------------------------

  /** ParseObjFile: one kept line applied to the state, switching on its
      first character (and second, for 'v'). A face line whose corner loop
      would never end yields None. */
  function ParseObjLine(st: ParseState, line: string): (r: Option<ParseState>)
    requires |line| > 0
    ensures IsVertexLine(line) ==> r == Some(st.(vertices := st.vertices + [ReadVec3(line, 2)]))
    ensures IsNormalLine(line) ==> r == Some(st.(normals := st.normals + [ReadVec3(line, 3)]))
    ensures IsUvLine(line) ==> r == Some(st.(uvs := st.uvs + [ReadVec2(line, 3)]))
    ensures IsFaceLine(line) ==> (r.None? <==> Diverges(line))
    ensures IsFaceLine(line) && r.Some? ==>
      && r.value.vertices == st.vertices && r.value.normals == st.normals && r.value.uvs == st.uvs
      && r.value.objects == st.objects && r.value.current.name == st.current.name
      && |st.current.faces| <= |r.value.current.faces|
      && r.value.current.faces[..|st.current.faces|] == st.current.faces
    ensures IsGroupLine(line) ==> r == Some(AddNewObject(st, line))
    ensures (!IsVertexLine(line) && !IsNormalLine(line) && !IsUvLine(line)
             && !IsFaceLine(line) && !IsGroupLine(line)) ==> r == Some(st)
  {
    match line[0]
    case 'v' =>
      if |line| > 1 then
        match line[1]
        case ' ' => Some(st.(vertices := ParseVertex(line, st.vertices)))
        case 'n' => Some(st.(normals := ParseNormal(line, st.normals)))
        case 't' => Some(st.(uvs := ParseUV(line, st.uvs)))
        case _ => Some(st)
      else Some(st)
    case 'f' =>
      if |line| > 1 && line[1] == ' ' then
        match ParseFace(line, st.current.faces)
        case None => None
        case Some(faces) => Some(st.(current := st.current.(faces := faces)))
      else Some(st)
    case 'o' => if |line| > 2 then Some(AddNewObject(st, line)) else Some(st)
    case 'g' => if |line| > 2 then Some(AddNewObject(st, line)) else Some(st)
    case _ => Some(st)
  }

  // ---------------------------------------------------------------------
  // The line loop
  // ---------------------------------------------------------------------

  /** char.IsWhiteSpace: the characters of Unicode categories Zs, Zl and
      Zp together with U+0009 to U+000D, U+0085 and U+00A0. */
  predicate IsWhiteSpace(c: char)
  {
    || ('\t' <= c <= '\r') || c == ' ' || c == '\U{85}' || c == '\U{A0}' || c == '\U{1680}'
    || ('\U{2000}' <= c <= '\U{200A}') || c == '\U{2028}' || c == '\U{2029}'
    || c == '\U{202F}' || c == '\U{205F}' || c == '\U{3000}'
  }

  /** Every character of line[s..e] is white space. */
  predicate WhiteIn(line: string, s: nat, e: nat)
    requires s <= e <= |line|
  {
    forall k :: s <= k < e ==> IsWhiteSpace(line[k])
  }

  /** The first column at or after i that is not white space. */
  function SkipWhite(line: string, i: nat): (j: nat)
    requires i <= |line|
    ensures i <= j <= |line|
    ensures WhiteIn(line, i, j)
    ensures j < |line| ==> !IsWhiteSpace(line[j])
    decreases |line| - i
  {
    if i < |line| && IsWhiteSpace(line[i]) then SkipWhite(line, i + 1) else i
  }

  /** The end of line[b..e] once trailing white space is dropped. */
  function WhiteEnd(line: string, b: nat, e: nat): (r: nat)
    requires b <= e <= |line|
    ensures b <= r <= e
    ensures WhiteIn(line, r, e)
    ensures r > b ==> !IsWhiteSpace(line[r - 1])
    decreases e
  {
    if e > b && IsWhiteSpace(line[e - 1]) then WhiteEnd(line, b, e - 1) else e
  }

  /** String.Trim as the loader applies it to each line read: leading and
      trailing white space removed. */
  function Trim(line: string): (t: string)
    ensures |t| <= |line|
    ensures |t| > 0 ==> !IsWhiteSpace(t[0]) && !IsWhiteSpace(t[|t| - 1])
    ensures |t| == 0 <==> WhiteIn(line, 0, |line|)
  {
    var b := SkipWhite(line, 0);
    line[b..WhiteEnd(line, b, |line|)]
  }

  /** Trim keeps exactly the stretch between the first and the last
      character that is not white space. */
  lemma TrimAt(line: string, b: nat, e: nat)
    requires b <= e <= |line|
    requires WhiteIn(line, 0, b) && WhiteIn(line, e, |line|)
    requires b < e ==> !IsWhiteSpace(line[b]) && !IsWhiteSpace(line[e - 1])
    ensures Trim(line) == line[b..e]
  {
    if b < e {
      SkipWhiteAt(line, 0, b);
      WhiteEndAt(line, b, |line|, e);
    } else {
      SkipWhiteAt(line, 0, |line|);
    }
  }

  /** A face line indented by a tab is trimmed before it is dispatched,
      so a letter among its corners still makes the whole load diverge. */
  lemma TrimmedTabFaceLineDiverges(fileName: string)
    ensures Trim("\tf 1 x") == "f 1 x"
    ensures LoadAsset(fileName, ["\tf 1 x"]).None?
  {
    var lines := ["\tf 1 x"];
    assert Trim(lines[0]) == "f 1 x" by {
      TrimAt(lines[0], 1, 6);
    }
    assert Diverges("f 1 x") by {
      assert !FaceChar("f 1 x"[4]);
    }
    LoadAssetContents(fileName, lines);
  }

  lemma {:induction false} SkipWhiteAt(line: string, i: nat, j: nat)
    requires i <= j <= |line| && WhiteIn(line, i, j)
    requires j < |line| ==> !IsWhiteSpace(line[j])
    ensures SkipWhite(line, i) == j
    decreases j - i
  {
    if i < j {
      SkipWhiteAt(line, i + 1, j);
    }
  }

  lemma {:induction false} WhiteEndAt(line: string, b: nat, e: nat, r: nat)
    requires b <= r <= e <= |line| && WhiteIn(line, r, e)
    requires r > b ==> !IsWhiteSpace(line[r - 1])
    ensures WhiteEnd(line, b, e) == r
    decreases e
  {
    if r < e {
      WhiteEndAt(line, b, e - 1, r);
    }
  }

  /** The loop of LoadAsset: each line is trimmed, empty lines and comments
      are skipped, the rest dispatched in order. */
  function ParseLines(st: ParseState, lines: seq<string>): (r: Option<ParseState>)
    ensures r.Some? ==>
      && st.vertices <= r.value.vertices && st.normals <= r.value.normals && st.uvs <= r.value.uvs
    decreases |lines|
  {
    if |lines| == 0 then Some(st)
    else
      match Step(st, Trim(lines[0]))
      case None => None
      case Some(next) => ParseLines(next, lines[1..])
  }

  /** One trimmed line of the loop: skipped when empty or a comment,
      dispatched otherwise. */
  function Step(st: ParseState, line: string): (r: Option<ParseState>)
    ensures r.None? <==> Diverges(line)
    ensures !Kept(line) ==> r == Some(st)
    ensures r.Some? ==>
      && st.vertices <= r.value.vertices && st.normals <= r.value.normals && st.uvs <= r.value.uvs
  {
    if !Kept(line) then Some(st) else ParseObjLine(st, line)
  }

  /** The group list after the loop: the last object is kept if it has
      faces, and when nothing was kept the (faceless) current object stands
      alone. */
  function CloseObjects(st: ParseState): (objects: seq<ObjObject>)
    ensures |objects| > 0
    ensures |st.current.faces| > 0 ==> objects == st.objects + [st.current]
    ensures |st.current.faces| == 0 && |st.objects| > 0 ==> objects == st.objects
    ensures |st.current.faces| == 0 && |st.objects| == 0 ==> objects == [st.current]
  {
    var closed := if |st.current.faces| > 0 then st.objects + [st.current] else st.objects;
    if |closed| == 0 then [st.current] else closed
  }

  /** The parse half of LoadAsset: the raw lists and the object list of a
      file, or None when a face line would hang the loader. */
  function LoadAsset(fileName: string, lines: seq<string>): (r: Option<(ParseState, seq<ObjObject>)>)
    ensures r.Some? ==> |r.value.1| > 0 && r.value.0.objects <= r.value.1
  {
    match ParseLines(InitialState(fileName), lines)
    case None => None
    case Some(st) => Some((st, CloseObjects(st)))
  }

  // ---------------------------------------------------------------------
  // Coordinates read back
  // ---------------------------------------------------------------------

  /** Texts joined with one space before each: the text after an element
      tag. */
  function Spaced(ts: seq<string>): string
  {
    if |ts| == 0 then "" else " " + ts[0] + Spaced(ts[1..])
  }

  /** The spellings of a list of coordinates. */
  function Texts(fs: seq<FloatSpelling>): (ts: seq<string>)
    ensures |ts| == |fs|
    ensures forall k :: 0 <= k < |fs| ==> ts[k] == SpellingText(fs[k])
  {
    if |fs| == 0 then [] else [SpellingText(fs[0])] + Texts(fs[1..])
  }

  /** The text after an element tag that spells coordinates fs. */
  function CoordsText(fs: seq<FloatSpelling>): string
  {
    Spaced(Texts(fs))
  }

  function SpellingValues(fs: seq<FloatSpelling>): (r: seq<real>)
    ensures |r| == |fs|
  {
    if |fs| == 0 then [] else [SpellingValue(fs[0])] + SpellingValues(fs[1..])
  }

  /** Each text spells the coordinate beside it, in a form ParseFloat can
      read back. */
  predicate Spells(ts: seq<string>, fs: seq<FloatSpelling>)
  {
    |ts| == |fs| && forall k :: 0 <= k < |fs| ==> ValidSpelling(fs[k]) && ts[k] == SpellingText(fs[k])
  }

  /** Where the first text and the rest land in a spaced text. */
  lemma SpacedLayout(line: string, at: nat, ts: seq<string>)
    requires |ts| > 0 && Placed(line, at, Spaced(ts)) && at + |Spaced(ts)| == |line|
    ensures var f := at + 1 + |ts[0]|;
      && line[at] == ' '
      && Placed(line, at + 1, ts[0])
      && Placed(line, f, Spaced(ts[1..])) && f + |Spaced(ts[1..])| == |line|
      && (f < |line| ==> line[f] == ' ')
  {
    var head := " " + ts[0];
    var rest := Spaced(ts[1..]);
    PlacedConcat(head, rest);
    PlacedConcat(" ", ts[0]);
    PlacedWithin(line, at, Spaced(ts), 0, head);
    PlacedWithin(line, at, head, 1, ts[0]);
    PlacedWithin(line, at, Spaced(ts), |head|, rest);
    assert line[at + 0] == head[0];
    if at + |head| < |line| {
      assert |ts[1..]| > 0;
      assert line[at + |head| + 0] == rest[0];
    }
  }

  /** The first coordinate of a spaced text is read where it stands. */
  lemma FirstCoordReads(line: string, at: nat, i: nat, t: string, negative: bool, whole: string,
                        fraction: string)
    requires AllDigits(whole) && AllDigits(fraction)
    requires negative || |whole| > 0 || |fraction| > 0
    requires t == FloatText(negative, whole, fraction)
    requires at < |line| && line[at] == ' ' && Placed(line, at + 1, t)
    requires var f := at + 1 + |t|; f < |line| ==> line[f] == ' '
    requires at <= i <= at + 1
    ensures ParseFloat(line, i) == Scan(SpellingValue(FloatSpelling(negative, whole, fraction)), at + 1 + |t|)
  {
    OneSpace(line, at, i);
    ParseFloatReadsText(line, i, at + 1, negative, whole, fraction);
    SpellingValueOf(negative, whole, fraction);
  }

  lemma SpellingValueOf(negative: bool, whole: string, fraction: string)
    ensures var magnitude := DecimalValue(whole) as real + FractionValue(fraction);
      SpellingValue(FloatSpelling(negative, whole, fraction)) == if negative then -magnitude else magnitude
  {
  }

  /** A single space, or nothing, lies between a cursor and the next
      column. */
  lemma OneSpace(line: string, at: nat, i: nat)
    requires at < |line| && line[at] == ' ' && at <= i <= at + 1
    ensures SpacesIn(line, i, at + 1)
  {
  }

  /** One round of ReadFloats. */
  lemma ReadFloatsStep(line: string, i: nat, n: nat, v: real, f: nat)
    requires n > 0 && ParseFloat(line, i) == Scan(v, f)
    ensures ReadFloats(line, i, n) == [v] + ReadFloats(line, f, n - 1)
  {
  }

  lemma SpellsTail(ts: seq<string>, fs: seq<FloatSpelling>)
    requires |fs| > 0 && Spells(ts, fs)
    ensures Spells(ts[1..], fs[1..])
  {
    forall k | 0 <= k < |fs[1..]|
      ensures ValidSpelling(fs[1..][k]) && ts[1..][k] == SpellingText(fs[1..][k])
    {
      assert fs[1..][k] == fs[k + 1] && ts[1..][k] == ts[k + 1];
    }
  }

  /** ReadFloats reads back a spaced text of coordinates that ends the
      line, whether the cursor starts on the space before the first number
      or after it. */
  lemma {:induction false} ReadFloatsReadsSpaced(line: string, at: nat, i: nat, ts: seq<string>,
                                                 fs: seq<FloatSpelling>)
    requires Spells(ts, fs)
    requires Placed(line, at, Spaced(ts)) && at + |Spaced(ts)| == |line|
    requires at <= i <= at + 1
    ensures ReadFloats(line, i, |fs|) == SpellingValues(fs)
    decreases |fs|
  {
    if |fs| > 0 {
      var f := at + 1 + |ts[0]|;
      var x := fs[0];
      assert ParseFloat(line, i) == Scan(SpellingValue(x), f) by {
        SpacedLayout(line, at, ts);
        assert ValidSpelling(x) && ts[0] == SpellingText(x);
        FirstCoordReads(line, at, i, ts[0], x.negative, x.whole, x.fraction);
      }
      assert ReadFloats(line, f, |fs[1..]|) == SpellingValues(fs[1..]) by {
        SpacedLayout(line, at, ts);
        SpellsTail(ts, fs);
        assert Spells(ts[1..], fs[1..]);
        assert Placed(line, f, Spaced(ts[1..]));
        assert f + |Spaced(ts[1..])| == |line|;
        assert |fs[1..]| < |fs|;
        ReadFloatsReadsSpaced(line, f, f, ts[1..], fs[1..]);
      }
      ReadFloatsStep(line, i, |fs|, SpellingValue(x), f);
      assert |fs[1..]| == |fs| - 1;
    }
  }

  /** ReadFloats reads back a coordinate text that ends the line. */
  lemma ReadFloatsReadsText(line: string, at: nat, i: nat, fs: seq<FloatSpelling>)
    requires forall k :: 0 <= k < |fs| ==> ValidSpelling(fs[k])
    requires Placed(line, at, CoordsText(fs)) && at + |CoordsText(fs)| == |line|
    requires at <= i <= at + 1
    ensures ReadFloats(line, i, |fs|) == SpellingValues(fs)
  {
    ReadFloatsReadsSpaced(line, at, i, Texts(fs), fs);
  }

  /** The values of two spellings, element by element. */
  lemma SpellingValuesPair(x: FloatSpelling, y: FloatSpelling)
    ensures SpellingValues([x, y]) == [SpellingValue(x), SpellingValue(y)]
  {
    assert [x, y][1..] == [y] && [y][1..] == [];
    assert SpellingValues([y]) == [SpellingValue(y)];
    assert SpellingValues([x, y]) == [SpellingValue(x)] + SpellingValues([y]);
  }

  /** The values of three spellings, element by element. */
  lemma SpellingValuesTriple(x: FloatSpelling, y: FloatSpelling, z: FloatSpelling)
    ensures SpellingValues([x, y, z]) == [SpellingValue(x), SpellingValue(y), SpellingValue(z)]
  {
    assert [x, y, z][1..] == [y, z];
    SpellingValuesPair(y, z);
    assert SpellingValues([x, y, z]) == [SpellingValue(x)] + SpellingValues([y, z]);
  }

  /** A tag followed by a coordinate text: where the text lands, and the
      floats read from the tag's end or one column after it. */
  lemma TaggedCoordsRead(tag: string, fs: seq<FloatSpelling>, i: nat)
    requires |fs| > 0 && forall k :: 0 <= k < |fs| ==> ValidSpelling(fs[k])
    requires |tag| <= i <= |tag| + 1
    ensures var line := tag + CoordsText(fs);
      && |line| > |tag| && line[|tag|] == ' '
      && ReadFloats(line, i, |fs|) == SpellingValues(fs)
  {
    var line := tag + CoordsText(fs);
    PlacedConcat(tag, CoordsText(fs));
    SpacedLayout(line, |tag|, Texts(fs));
    ReadFloatsReadsText(line, |tag|, i, fs);
  }

  /** Three written coordinates after a tag read back as their vector. */
  lemma TaggedVec3Read(tag: string, x: FloatSpelling, y: FloatSpelling, z: FloatSpelling, i: nat)
    requires ValidSpelling(x) && ValidSpelling(y) && ValidSpelling(z)
    requires |tag| <= i <= |tag| + 1
    ensures ReadVec3(tag + CoordsText([x, y, z]), i) == Vec3(SpellingValue(x), SpellingValue(y), SpellingValue(z))
  {
    TaggedCoordsRead(tag, [x, y, z], i);
    SpellingValuesTriple(x, y, z);
  }

  /** Two written coordinates after a tag read back as their vector. */
  lemma TaggedVec2Read(tag: string, u: FloatSpelling, v: FloatSpelling, i: nat)
    requires ValidSpelling(u) && ValidSpelling(v)
    requires |tag| <= i <= |tag| + 1
    ensures ReadVec2(tag + CoordsText([u, v]), i) == Vec2(SpellingValue(u), SpellingValue(v))
  {
    TaggedCoordsRead(tag, [u, v], i);
    SpellingValuesPair(u, v);
  }

  /** The dispatch of an element line, stated apart from its text. */
  lemma VertexLineStep(st: ParseState, line: string, v: Vec3)
    requires IsVertexLine(line) && ReadVec3(line, 2) == v
    ensures ParseObjLine(st, line) == Some(st.(vertices := st.vertices + [v]))
  {
  }

  lemma NormalLineStep(st: ParseState, line: string, n: Vec3)
    requires IsNormalLine(line) && ReadVec3(line, 3) == n
    ensures ParseObjLine(st, line) == Some(st.(normals := st.normals + [n]))
  {
  }

  lemma UvLineStep(st: ParseState, line: string, t: Vec2)
    requires IsUvLine(line) && ReadVec2(line, 3) == t
    ensures ParseObjLine(st, line) == Some(st.(uvs := st.uvs + [t]))
  {
  }

  /** ParseVertex reads back a vertex line written as "v" and three
      coordinates. */
  lemma VertexLineReads(st: ParseState, x: FloatSpelling, y: FloatSpelling, z: FloatSpelling)
    requires ValidSpelling(x) && ValidSpelling(y) && ValidSpelling(z)
    ensures ParseObjLine(st, "v" + CoordsText([x, y, z]))
      == Some(st.(vertices := st.vertices + [Vec3(SpellingValue(x), SpellingValue(y), SpellingValue(z))]))
  {
    var line := "v" + CoordsText([x, y, z]);
    assert IsVertexLine(line) by {
      assert line[..1] == "v";
    }
    TaggedVec3Read("v", x, y, z, 2);
    VertexLineStep(st, line, Vec3(SpellingValue(x), SpellingValue(y), SpellingValue(z)));
  }

  /** ParseNormal reads back a normal line written as "vn" and three
      coordinates. */
  lemma NormalLineReads(st: ParseState, x: FloatSpelling, y: FloatSpelling, z: FloatSpelling)
    requires ValidSpelling(x) && ValidSpelling(y) && ValidSpelling(z)
    ensures ParseObjLine(st, "vn" + CoordsText([x, y, z]))
      == Some(st.(normals := st.normals + [Vec3(SpellingValue(x), SpellingValue(y), SpellingValue(z))]))
  {
    var line := "vn" + CoordsText([x, y, z]);
    assert IsNormalLine(line) by {
      assert line[..2] == "vn";
    }
    TaggedVec3Read("vn", x, y, z, 3);
    NormalLineStep(st, line, Vec3(SpellingValue(x), SpellingValue(y), SpellingValue(z)));
  }

  /** ParseUV reads back a texture-coordinate line written as "vt" and two
      coordinates. */
  lemma UvLineReads(st: ParseState, u: FloatSpelling, v: FloatSpelling)
    requires ValidSpelling(u) && ValidSpelling(v)
    ensures ParseObjLine(st, "vt" + CoordsText([u, v]))
      == Some(st.(uvs := st.uvs + [Vec2(SpellingValue(u), SpellingValue(v))]))
  {
    var line := "vt" + CoordsText([u, v]);
    assert IsUvLine(line) by {
      assert line[..2] == "vt";
    }
    TaggedVec2Read("vt", u, v, 3);
    UvLineStep(st, line, Vec2(SpellingValue(u), SpellingValue(v)));
  }

  /** A face line written from corners appends the fan of those corners
      to the current object and changes nothing else. */
  lemma FaceLineReads(st: ParseState, cs: seq<MeshVertex>)
    requires |cs| > 0 && forall k :: 0 <= k < |cs| ==> WellFormedCorner(cs[k])
    ensures ParseObjLine(st, FaceLine(cs))
      == Some(st.(current := st.current.(faces := st.current.faces + Triangulate(cs))))
  {
    var line := FaceLine(cs);
    assert IsFaceLine(line) && ParseFace(line, st.current.faces) == Some(st.current.faces + Triangulate(cs)) by {
      ParseFaceReadsText(cs, st.current.faces);
      assert line[1] == CornersText(cs)[0];
    }
  }

  /** A vertex line with no readable number still appends a vertex, the
      origin: every coordinate scan stops on the first unreadable
      character. */
  lemma VertexLineWithoutNumbers(st: ParseState, line: string, s: nat)
    requires IsVertexLine(line)
    requires 2 <= s <= |line| && SpacesIn(line, 2, s)
    requires s < |line| ==> !FloatChar(line[s])
    ensures ParseObjLine(st, line) == Some(st.(vertices := st.vertices + [Zero3]))
  {
    ParseFloatReadsNothing(line, 2, s);
    ParseFloatReadsNothing(line, s, s);
  }

  /** A bare "vn" or "vt" still appends an element, all zeros: its cursor
      starts past the end of the line. */
  lemma ShortTagLinesReadZeros(st: ParseState, line: string)
    requires |line| == 2 && line[0] == 'v' && (line[1] == 'n' || line[1] == 't')
    ensures line[1] == 'n' ==> ParseObjLine(st, line) == Some(st.(normals := st.normals + [Zero3]))
    ensures line[1] == 't' ==> ParseObjLine(st, line) == Some(st.(uvs := st.uvs + [Zero2]))
  {
    assert ReadFloats(line, 3, 1) == [0.0];
    assert ReadFloats(line, 3, 2) == [0.0, 0.0];
    assert ReadFloats(line, 3, 3) == [0.0, 0.0, 0.0];
  }

  // ---------------------------------------------------------------------
  // Group names read back
  // ---------------------------------------------------------------------

  /** The end NameEnd finds is determined by the line. */
  lemma {:induction false} NameEndAt(line: string, b: nat, e: nat, n: nat)
    requires b <= n <= e <= |line|
    requires SpacesIn(line, n, e)
    requires n > b ==> line[n - 1] != ' '
    ensures NameEnd(line, b, e) == n
    decreases e
  {
    if n < e {
      NameEndAt(line, b, e - 1, n);
    }
  }

  /** ExtractName returns exactly the text between the leading and the
      trailing spaces. */
  lemma ExtractNameAt(line: string, start: nat, b: nat, e: nat)
    requires start <= b <= e <= |line|
    requires SpacesIn(line, start, b) && SpacesIn(line, e, |line|)
    requires b < e ==> line[b] != ' ' && line[e - 1] != ' '
    ensures ExtractName(line, start) == line[b..e]
  {
    if b < e {
      SkipSpacesAt(line, start, b);
      NameEndAt(line, b, |line|, e);
    } else {
      SkipSpacesAt(line, start, |line|);
    }
  }

  /** A group line "o" or "g", spaces, and a name starts an empty object
      of that name. */
  lemma GroupLineNames(st: ParseState, tag: char, pad: string, name: string)
    requires tag == 'o' || tag == 'g'
    requires AllSpaces(pad) && |name| > 0 && name[0] != ' ' && name[|name| - 1] != ' '
    ensures
      var r := ParseObjLine(st, [tag, ' '] + pad + name);
      r.Some? && r.value.current == ObjObject(name, [])
  {
    var line := [tag, ' '] + pad + name;
    var b := 2 + |pad|;
    assert line[b..|line|] == name;
    forall k | 2 <= k < b ensures line[k] == ' ' {
      assert line[k] == pad[k - 2];
    }
    ExtractNameAt(line, 2, b, |line|);
  }

  // ---------------------------------------------------------------------
  // The file as a whole
  // ---------------------------------------------------------------------

  /** The faces of a list of objects, in order. */
  function Flatten(objects: seq<ObjObject>): seq<ObjFace>
  {
    if |objects| == 0 then [] else Flatten(objects[..|objects| - 1]) + objects[|objects| - 1].faces
  }

  /** Every face the state holds: closed objects first, then the current
      one. */
  function AllFaces(st: ParseState): seq<ObjFace>
  {
    Flatten(st.objects) + st.current.faces
  }

  predicate AllFaced(objects: seq<ObjObject>)
  {
    forall k :: 0 <= k < |objects| ==> |objects[k].faces| > 0
  }

  /** What a single (trimmed) line contributes to each list on its own. */
  function LineVertices(line: string): seq<Vec3>
  {
    if IsVertexLine(line) then [ReadVec3(line, 2)] else []
  }

  function LineNormals(line: string): seq<Vec3>
  {
    if IsNormalLine(line) then [ReadVec3(line, 3)] else []
  }

  function LineUvs(line: string): seq<Vec2>
  {
    if IsUvLine(line) then [ReadVec2(line, 3)] else []
  }

  function LineFaces(line: string): seq<ObjFace>
  {
    if IsFaceLine(line) then
      match FaceCorners(line, 2)
      case Some(cs) => Triangulate(cs)
      case None => []
    else []
  }

  /** Reference lists of a file, line by line: what each kind of line
      contributes, independent of the state the loop threads. */
  function FileVertices(lines: seq<string>): seq<Vec3>
  {
    if |lines| == 0 then [] else LineVertices(Trim(lines[0])) + FileVertices(lines[1..])
  }

  function FileNormals(lines: seq<string>): seq<Vec3>
  {
    if |lines| == 0 then [] else LineNormals(Trim(lines[0])) + FileNormals(lines[1..])
  }

  function FileUvs(lines: seq<string>): seq<Vec2>
  {
    if |lines| == 0 then [] else LineUvs(Trim(lines[0])) + FileUvs(lines[1..])
  }

  function FileFaces(lines: seq<string>): seq<ObjFace>
  {
    if |lines| == 0 then [] else LineFaces(Trim(lines[0])) + FileFaces(lines[1..])
  }

  lemma ConcatAssoc<T>(a: seq<T>, b: seq<T>, c: seq<T>)
    ensures a + (b + c) == (a + b) + c
  {
  }

  lemma ConcatEmpty<T>(a: seq<T>)
    ensures [] + a == a && a + [] == a
  {
  }

  /** Closing an object keeps its faces at the end of the object list. */
  lemma FlattenAppend(objects: seq<ObjObject>, o: ObjObject)
    ensures Flatten(objects + [o]) == Flatten(objects) + o.faces
  {
    assert (objects + [o])[..|objects|] == objects;
  }

  /** One line moves faces around but neither loses nor invents any: the
      state's faces grow by exactly the line's triangles, and only objects
      with faces are closed. */
  lemma ParseObjLineFaces(st: ParseState, line: string)
    requires |line| > 0 && ParseObjLine(st, line).Some?
    ensures AllFaces(ParseObjLine(st, line).value) == AllFaces(st) + LineFaces(line)
    ensures AllFaced(st.objects) ==> AllFaced(ParseObjLine(st, line).value.objects)
  {
    if IsFaceLine(line) {
      FaceLineFaces(st, line);
    } else if IsGroupLine(line) {
      GroupLineFaces(st, line);
    } else {
      assert ParseObjLine(st, line).value.objects == st.objects;
      assert ParseObjLine(st, line).value.current == st.current;
    }
  }

  /** A face line adds its fan to the current object and closes nothing. */
  lemma FaceLineFaces(st: ParseState, line: string)
    requires IsFaceLine(line) && ParseObjLine(st, line).Some?
    ensures AllFaces(ParseObjLine(st, line).value) == AllFaces(st) + LineFaces(line)
    ensures ParseObjLine(st, line).value.objects == st.objects
  {
    var r := ParseObjLine(st, line).value;
    var cs :| FaceCorners(line, 2) == Some(cs);
    assert r.current.faces == st.current.faces + Triangulate(cs);
  }

  /** A group line moves the current faces into the closed objects, or
      drops a faceless current object, so no face is lost or gained. */
  lemma GroupLineFaces(st: ParseState, line: string)
    requires IsGroupLine(line)
    ensures AllFaces(AddNewObject(st, line)) == AllFaces(st)
    ensures AllFaced(st.objects) ==> AllFaced(AddNewObject(st, line).objects)
  {
    if |st.current.faces| > 0 {
      FlattenAppend(st.objects, st.current);
    }
  }

  /** One line of the loop: it fails exactly when it is a diverging face
      line; otherwise each list grows by the line's own contribution and
      only objects with faces are closed. */
  lemma StepContents(st: ParseState, line: string)
    ensures Step(st, line).None? <==> Diverges(line)
    ensures Step(st, line).Some? ==>
      var next := Step(st, line).value;
      && next.vertices == st.vertices + LineVertices(line)
      && next.normals == st.normals + LineNormals(line)
      && next.uvs == st.uvs + LineUvs(line)
      && AllFaces(next) == AllFaces(st) + LineFaces(line)
      && (AllFaced(st.objects) ==> AllFaced(next.objects))
  {
    if Step(st, line).Some? {
      StepLists(st, line);
      StepFaces(st, line);
    }
  }

  /** A line that goes through grows each raw list by its own
      contribution. */
  lemma StepLists(st: ParseState, line: string)
    requires Step(st, line).Some?
    ensures var next := Step(st, line).value;
      && next.vertices == st.vertices + LineVertices(line)
      && next.normals == st.normals + LineNormals(line)
      && next.uvs == st.uvs + LineUvs(line)
  {
  }

  /** A line that goes through grows the faces by its own triangles and
      closes only objects with faces. */
  lemma StepFaces(st: ParseState, line: string)
    requires Step(st, line).Some?
    ensures AllFaces(Step(st, line).value) == AllFaces(st) + LineFaces(line)
    ensures AllFaced(st.objects) ==> AllFaced(Step(st, line).value.objects)
  {
    if Kept(line) {
      ParseObjLineFaces(st, line);
    }
  }

  /** The loop's None is exactly a diverging face line somewhere in the
      file. */
  lemma {:induction false} ParseLinesDivergesIff(st: ParseState, lines: seq<string>)
    ensures ParseLines(st, lines).None? <==> exists k :: 0 <= k < |lines| && Diverges(Trim(lines[k]))
    decreases |lines|
  {
    if |lines| > 0 {
      var rest := lines[1..];
      assert forall k :: 0 <= k < |rest| ==> rest[k] == lines[k + 1];
      StepContents(st, Trim(lines[0]));
      if Step(st, Trim(lines[0])).Some? {
        ParseLinesDivergesIff(Step(st, Trim(lines[0])).value, rest);
      }
    }
  }

  /** The loop's raw lists are the file's vertex, normal and uv lines read
      in order, after whatever the state held; its faces are every face of
      the file in order, after the state's; and it closes only objects
      that have faces. */
  lemma {:induction false} ParseLinesContents(st: ParseState, lines: seq<string>)
    requires ParseLines(st, lines).Some?
    ensures var r := ParseLines(st, lines).value;
      && r.vertices == st.vertices + FileVertices(lines)
      && r.normals == st.normals + FileNormals(lines)
      && r.uvs == st.uvs + FileUvs(lines)
      && AllFaces(r) == AllFaces(st) + FileFaces(lines)
      && (AllFaced(st.objects) ==> AllFaced(r.objects))
    decreases |lines|
  {
    if |lines| > 0 {
      var line := Trim(lines[0]);
      var rest := lines[1..];
      StepContents(st, line);
      var next := Step(st, line).value;
      ParseLinesContents(next, rest);
      assert ParseLines(st, lines) == ParseLines(next, rest);
      ConcatAssoc(st.vertices, LineVertices(line), FileVertices(rest));
      ConcatAssoc(st.normals, LineNormals(line), FileNormals(rest));
      ConcatAssoc(st.uvs, LineUvs(line), FileUvs(rest));
      ConcatAssoc(AllFaces(st), LineFaces(line), FileFaces(rest));
    }
  }

  /** LoadAsset: None exactly when a face line would hang the loader;
      otherwise the raw lists are the file's element lines in order, the
      object list holds every face of the file in order, and it is either
      a list of objects that all have faces or the single faceless
      fallback object. */
  lemma LoadAssetContents(fileName: string, lines: seq<string>)
    ensures LoadAsset(fileName, lines).None? <==> exists k :: 0 <= k < |lines| && Diverges(Trim(lines[k]))
    ensures LoadAsset(fileName, lines).Some? ==>
      var (st, objects) := LoadAsset(fileName, lines).value;
      && st.vertices == FileVertices(lines)
      && st.normals == FileNormals(lines)
      && st.uvs == FileUvs(lines)
      && Flatten(objects) == FileFaces(lines)
      && |objects| > 0
      && (AllFaced(objects) || (|objects| == 1 && objects[0].faces == []))
  {
    var st0 := InitialState(fileName);
    ParseLinesDivergesIff(st0, lines);
    if ParseLines(st0, lines).Some? {
      var st := ParseLines(st0, lines).value;
      var objects := CloseObjects(st);
      assert AllFaces(st0) == [];
      ParseLinesContents(st0, lines);
      ConcatEmpty(FileVertices(lines));
      ConcatEmpty(FileNormals(lines));
      ConcatEmpty(FileUvs(lines));
      ConcatEmpty(FileFaces(lines));
      assert AllFaced(st.objects);
      CloseObjectsFaces(st);
    }
  }

  /** Closing the objects after the loop keeps every face in order, and
      leaves either objects that all have faces or the single faceless
      fallback. */
  lemma CloseObjectsFaces(st: ParseState)
    requires AllFaced(st.objects)
    ensures Flatten(CloseObjects(st)) == AllFaces(st)
    ensures AllFaced(CloseObjects(st)) || (|CloseObjects(st)| == 1 && CloseObjects(st)[0].faces == [])
  {
    if |st.current.faces| > 0 {
      FlattenAppend(st.objects, st.current);
    } else {
      ConcatEmpty(Flatten(st.objects));
      if |st.objects| == 0 {
        FlattenAppend([], st.current);
      }
    }
  }
}

=== FILE: scanner.dfy ===
/** The loader's two number scanners. Each takes a line and a cursor, skips
    ' ' characters only, reads a run of decimal digits and returns the value
    together with the advanced cursor. The cursor may start past the end of
    the line (a two-character "vn" line starts its scan at 3); the scanners
    then read nothing and return 0. Values are exact: `int` for ParseInt
    (no 32-bit wrap-around) and `real` for ParseFloat (no float rounding). */
module Scanner {

  /** A scanned value and the cursor just past what was consumed. */
  datatype Scan<+T> = Scan(value: T, next: nat)

  /** ASCII decimal digits. */
  predicate IsDigit(c: char)
  {
    '0' <= c <= '9'
  }

  /** The numeric value of a character, as `c - '0'` in the source; it is
      a digit's value whenever IsDigit(c). */
  function DigitValue(c: char): int
  {
    c as int - '0' as int
  }

  function DigitChar(d: nat): char
    requires d < 10
  {
    ('0' as int + d) as char
  }

  /** The characters ParseFloat may step over. */
  predicate FloatChar(c: char)
  {
    c == ' ' || c == '-' || c == '.' || IsDigit(c)
  }

  /** Every character of line[s..e] is a digit. */
  predicate DigitsIn(line: string, s: nat, e: nat)
    requires s <= e <= |line|
  {
    forall k :: s <= k < e ==> IsDigit(line[k])
  }

  /** Every character of line[s..e] is a space. */
  predicate SpacesIn(line: string, s: nat, e: nat)
    requires s <= e <= |line|
  {
    forall k :: s <= k < e ==> line[k] == ' '
  }

  predicate AllDigits(s: string)
  {
    forall k :: 0 <= k < |s| ==> IsDigit(s[k])
  }

  predicate AllSpaces(s: string)
  {
    SpacesIn(s, 0, |s|)
  }

  // ---------------------------------------------------------------------
  // Reference meaning of digit runs
  // ---------------------------------------------------------------------

  /** Positional value of the digits line[s..e], most significant first. */
  function DecimalValueAt(line: string, s: nat, e: nat): int
    requires s <= e <= |line|
    decreases e
  {
    if s == e then 0
    else DecimalValueAt(line, s, e - 1) * 10 + DigitValue(line[e - 1])
  }

  /** Value of the digits line[s..e] written after a decimal point: "25"
      means 0.25. */
  function FractionValueAt(line: string, s: nat, e: nat): real
    requires s <= e <= |line|
    decreases e - s
  {
    if s == e then 0.0
    else (DigitValue(line[s]) as real + FractionValueAt(line, s + 1, e)) / 10.0
  }

  /** The value of a whole digit string. */
  function DecimalValue(ds: string): int
  {
    DecimalValueAt(ds, 0, |ds|)
  }

  /** The value of a whole string of fraction digits. */
  function FractionValue(ds: string): real
  {
    FractionValueAt(ds, 0, |ds|)
  }

  /** piece occurs in line at offset at. */
  predicate Placed(line: string, at: nat, piece: string)
  {
    at + |piece| <= |line| && forall k :: at <= k < at + |piece| ==> line[k] == piece[k - at]
  }

  /** The two halves of a concatenation are placed in it. */
  lemma PlacedConcat(a: string, b: string)
    ensures Placed(a + b, 0, a) && Placed(a + b, |a|, b)
  {
  }

  /** A piece placed in a piece placed in a line is placed in the line. */
  lemma PlacedWithin(line: string, at: nat, mid: string, at2: nat, piece: string)
    requires Placed(line, at, mid) && Placed(mid, at2, piece)
    ensures Placed(line, at + at2, piece)
  {
    forall k | 0 <= k < |piece|
      ensures line[at + at2 + k] == piece[k]
    {
      assert line[at + (at2 + k)] == mid[at2 + k];
    }
  }

  /** A placed run of digits makes that stretch of the line digits. */
  lemma PlacedDigits(line: string, at: nat, piece: string)
    requires Placed(line, at, piece) && AllDigits(piece)
    ensures DigitsIn(line, at, at + |piece|)
  {
    forall k | at <= k < at + |piece|
      ensures IsDigit(line[k])
    {
      assert line[at + (k - at)] == piece[k - at];
    }
  }

  /** The value of a digit run depends only on its characters, not on
      where it sits: the first m digits of a placed piece. */
  lemma {:induction false} DecimalValueShift(line: string, at: nat, piece: string, m: nat)
    requires Placed(line, at, piece) && m <= |piece|
    ensures DecimalValueAt(line, at, at + m) == DecimalValueAt(piece, 0, m)
  {
    if m > 0 {
      DecimalValueShift(line, at, piece, m - 1);
      assert line[at + (m - 1)] == piece[m - 1];
    }
  }

  /** The same for fraction digits: the digits of a placed piece from m on. */
  lemma {:induction false} FractionValueShift(line: string, at: nat, piece: string, m: nat)
    requires Placed(line, at, piece) && m <= |piece|
    ensures FractionValueAt(line, at + m, at + |piece|) == FractionValueAt(piece, m, |piece|)
    decreases |piece| - m
  {
    if m < |piece| {
      assert line[at + m] == piece[m];
      FractionValueShift(line, at, piece, m + 1);
    }
  }

  /** A fraction part is never a whole unit. */
  lemma {:induction false} FractionValueBounds(line: string, s: nat, e: nat)
    requires s <= e <= |line| && DigitsIn(line, s, e)
    ensures 0.0 <= FractionValueAt(line, s, e) < 1.0
    decreases e - s
  {
    if s < e {
      FractionValueBounds(line, s + 1, e);
    }
  }

  /** Shortest decimal spelling of a natural number. */
  function DecimalText(n: nat): (t: string)
    ensures |t| > 0 && AllDigits(t)
    ensures DecimalValue(t) == n
    decreases n
  {
    if n < 10 then
      assert DecimalValueAt([DigitChar(n)], 0, 0) == 0;
      [DigitChar(n)]
    else
      var prefix := DecimalText(n / 10);
      var t := prefix + [DigitChar(n % 10)];
      PlacedConcat(prefix, [DigitChar(n % 10)]);
      DecimalValueShift(t, 0, prefix, |prefix|);
      t
  }

  // ---------------------------------------------------------------------
  // Cursor movement
  // ---------------------------------------------------------------------

  /** The position of the first non-space character at or after i: every
      skipped character is ' ' and the one stopped at is not. */
  function SkipSpaces(line: string, i: nat): (j: nat)
    ensures i <= j
    ensures i <= |line| ==> j <= |line|
    ensures i >= |line| ==> j == i
    ensures forall k :: i <= k < j ==> line[k] == ' '
    ensures j < |line| ==> line[j] != ' '
    decreases |line| - i
  {
    if i < |line| && line[i] == ' ' then SkipSpaces(line, i + 1) else i
  }

  /** The end of the maximal digit run starting at i. */
  function DigitRunEnd(line: string, i: nat): (j: nat)
    ensures i <= j
    ensures i <= |line| ==> j <= |line|
    ensures i >= |line| ==> j == i
    ensures forall k :: i <= k < j ==> IsDigit(line[k])
    ensures j < |line| ==> !IsDigit(line[j])
    decreases |line| - i
  {
    if i < |line| && IsDigit(line[i]) then DigitRunEnd(line, i + 1) else i
  }

  /** The space run is determined by the line: any j that satisfies the
      contract of SkipSpaces is its result. */
  lemma {:induction false} SkipSpacesAt(line: string, i: nat, j: nat)
    requires i <= j <= |line|
    requires SpacesIn(line, i, j)
    requires j < |line| ==> line[j] != ' '
    ensures SkipSpaces(line, i) == j
    decreases j - i
  {
    if i < j {
      SkipSpacesAt(line, i + 1, j);
    }
  }

  /** Same uniqueness for digit runs. */
  lemma {:induction false} DigitRunEndAt(line: string, i: nat, j: nat)
    requires i <= j <= |line|
    requires DigitsIn(line, i, j)
    requires j < |line| ==> !IsDigit(line[j])
    ensures DigitRunEnd(line, i) == j
    decreases j - i
  {
    if i < j {
      DigitRunEndAt(line, i + 1, j);
    }
  }

  // ---------------------------------------------------------------------
  // The accumulation loops
  // ---------------------------------------------------------------------

  /** The integer-part loop: `acc = acc * 10 + digit` while the cursor is on
      a digit. */
  function AccumulateDigits(line: string, i: nat, acc: nat): (r: Scan<nat>)
    ensures r.next == DigitRunEnd(line, i)
    decreases |line| - i
  {
    if i < |line| && IsDigit(line[i]) then
      AccumulateDigits(line, i + 1, acc * 10 + DigitValue(line[i]))
    else Scan(acc, i)
  }

  /** Starting from the value of the digits already read (line[s..i]), the
      loop ends with the value of the whole run. */
  lemma {:induction false} AccumulateDigitsValue(line: string, s: nat, i: nat, acc: nat)
    requires s <= i <= |line|
    requires acc == DecimalValueAt(line, s, i)
    ensures var r := AccumulateDigits(line, i, acc);
      r.next <= |line| && r.value == DecimalValueAt(line, s, r.next)
    decreases |line| - i
  {
    if i < |line| && IsDigit(line[i]) {
      AccumulateDigitsValue(line, s, i + 1, acc * 10 + DigitValue(line[i]));
    }
  }

  /** The integer loop over a known digit run reads its decimal value. */
  lemma AccumulateDigitsRun(line: string, d: nat, e: nat)
    requires d <= e <= |line|
    requires DigitsIn(line, d, e)
    requires e < |line| ==> !IsDigit(line[e])
    ensures AccumulateDigits(line, d, 0) == Scan(DecimalValueAt(line, d, e), e)
  {
    DigitRunEndAt(line, d, e);
    AccumulateDigitsValue(line, d, d, 0);
  }

  /** The fraction loop: `part += digit * multiplier; multiplier *= 0.1`. */
  function AccumulateFraction(line: string, i: nat, part: real, multiplier: real): (r: Scan<real>)
    ensures r.next == DigitRunEnd(line, i)
    decreases |line| - i
  {
    if i < |line| && IsDigit(line[i]) then
      AccumulateFraction(line, i + 1, part + DigitValue(line[i]) as real * multiplier, multiplier * 0.1)
    else Scan(part, i)
  }

  /** The sum the fraction loop builds, in the loop's own shape: each digit
      weighted by the current multiplier, which shrinks tenfold per digit. */
  function FractionSum(line: string, i: nat, e: nat, multiplier: real): real
    requires i <= e <= |line|
    decreases e - i
  {
    if i == e then 0.0
    else DigitValue(line[i]) as real * multiplier + FractionSum(line, i + 1, e, multiplier * 0.1)
  }

  /** The loop ends at the end of the digit run, having added the run's
      weighted sum to part. */
  lemma {:induction false} AccumulateFractionValue(line: string, i: nat, part: real, multiplier: real)
    requires i <= |line|
    ensures var r := AccumulateFraction(line, i, part, multiplier);
      r.next <= |line| && r.value == part + FractionSum(line, i, r.next, multiplier)
    decreases |line| - i
  {
    if i < |line| && IsDigit(line[i]) {
      AccumulateFractionValue(line, i + 1, part + DigitValue(line[i]) as real * multiplier, multiplier * 0.1);
    }
  }

  /** The weighted sum is the positional fraction value scaled by
      multiplier * 10: with the source's starting multiplier 0.1 the loop
      yields exactly the value of the fraction digits. */
  lemma {:induction false} FractionSumScaled(line: string, s: nat, e: nat, multiplier: real)
    requires s <= e <= |line|
    ensures FractionSum(line, s, e, multiplier) == multiplier * 10.0 * FractionValueAt(line, s, e)
    decreases e - s
  {
    if s < e {
      FractionSumScaled(line, s + 1, e, multiplier * 0.1);
      FractionStep(DigitValue(line[s]) as real, multiplier, FractionValueAt(line, s + 1, e),
                   FractionSum(line, s, e, multiplier), FractionValueAt(line, s, e));
    }
  }

  /** The arithmetic of one fraction-loop step. */
  lemma FractionStep(d: real, multiplier: real, tail: real, value: real, fraction: real)
    requires value == d * multiplier + multiplier * 0.1 * 10.0 * tail
    requires fraction == (d + tail) / 10.0
    ensures value == multiplier * 10.0 * fraction
  {
  }

  // ---------------------------------------------------------------------
  // The scanners
  // ---------------------------------------------------------------------

  /** ParseInt: skip spaces, then read the maximal digit run. No sign is
      recognised; an empty run reads as 0. */
  function ParseInt(line: string, i: nat): (r: Scan<nat>)
    ensures i <= r.next
    ensures i <= |line| ==> r.next <= |line|
    ensures i >= |line| ==> r == Scan(0, i)
    ensures forall k :: i <= k < r.next ==> line[k] == ' ' || IsDigit(line[k])
    ensures r.next < |line| ==> !IsDigit(line[r.next])
    ensures i <= |line| ==>
      var s := SkipSpaces(line, i);
      s <= r.next && DigitsIn(line, s, r.next) && r.value == DecimalValueAt(line, s, r.next)
  {
    var s := SkipSpaces(line, i);
    var r := AccumulateDigits(line, s, 0);
    if s <= |line| then
      AccumulateDigitsValue(line, s, s, 0);
      r
    else r
  }

  /** The fraction part of ParseFloat: a '.' and the digits after it, or
      nothing when the cursor is not on a '.'. */
  function ParseFraction(line: string, e: nat): (r: Scan<real>)
    ensures e <= r.next
    ensures e <= |line| ==> r.next <= |line|
    ensures r.next == e <==> e >= |line| || line[e] != '.'
    ensures r.next == e ==> r.value == 0.0
  {
    if e < |line| && line[e] == '.' then AccumulateFraction(line, e + 1, 0.0, 0.1)
    else Scan(0.0, e)
  }

  /** The unsigned part of ParseFloat: integer digits, then the fraction. */
  function ParseMagnitude(line: string, d: nat): (r: Scan<real>)
    ensures d <= r.next
    ensures d <= |line| ==> r.next <= |line|
    ensures r.next < |line| ==> !IsDigit(line[r.next])
  {
    var whole := AccumulateDigits(line, d, 0);
    var fraction := ParseFraction(line, whole.next);
    Scan(whole.value as real + fraction.value, fraction.next)
  }

  /** ParseFloat: skip spaces, an optional '-', the integer digits, then an
      optional '.' followed by fraction digits. No '+', no exponent. */
  function ParseFloat(line: string, i: nat): (r: Scan<real>)
    ensures i <= r.next
    ensures i <= |line| ==> r.next <= |line|
    ensures i >= |line| ==> r == Scan(0.0, i)
    ensures r.next < |line| ==> !IsDigit(line[r.next])
  {
    var s := SkipSpaces(line, i);
    var negative := s < |line| && line[s] == '-';
    var magnitude := ParseMagnitude(line, if negative then s + 1 else s);
    Scan(if negative then -magnitude.value else magnitude.value, magnitude.next)
  }

  // ---------------------------------------------------------------------
  // Read-back on a line, by position
  // ---------------------------------------------------------------------

  /** ParseInt started on a non-empty digit run that ends the number reads
      exactly that run. */
  lemma ParseIntReadsDigits(line: string, i: nat, e: nat)
    requires i < e <= |line|
    requires DigitsIn(line, i, e)
    requires e < |line| ==> !IsDigit(line[e])
    ensures ParseInt(line, i) == Scan(DecimalValueAt(line, i, e), e)
  {
    assert IsDigit(line[i]);
    SkipSpacesAt(line, i, i);
    AccumulateDigitsRun(line, i, e);
  }

  /** A scan whose first non-space character is not a digit reads 0 and
      leaves the cursor on that character. */
  lemma ParseIntReadsNothing(line: string, i: nat, s: nat)
    requires i <= s <= |line| && SpacesIn(line, i, s)
    requires s < |line| ==> line[s] != ' ' && !IsDigit(line[s])
    ensures ParseInt(line, i) == Scan(0, s)
  {
    SkipSpacesAt(line, i, s);
    AccumulateDigitsRun(line, s, s);
  }

  /** A fraction part occupies line[e..f]: nothing (f == e, and the cursor
      is not on a '.'), or a '.' followed by digits up to f. */
  predicate FractionEndsAt(line: string, e: nat, f: nat)
  {
    && e <= f <= |line|
    && (f > e ==> line[e] == '.' && DigitsIn(line, e + 1, f))
    && (f == e && f < |line| ==> line[f] != '.')
    && (f < |line| ==> !IsDigit(line[f]))
  }

  /** The value of the fraction part that FractionEndsAt describes. */
  function FractionPartValue(line: string, e: nat, f: nat): real
    requires FractionEndsAt(line, e, f)
  {
    if f > e then FractionValueAt(line, e + 1, f) else 0.0
  }

  lemma ParseFractionAt(line: string, e: nat, f: nat)
    requires FractionEndsAt(line, e, f)
    ensures ParseFraction(line, e) == Scan(FractionPartValue(line, e, f), f)
  {
    if f > e {
      DigitRunEndAt(line, e + 1, f);
      AccumulateFractionValue(line, e + 1, 0.0, 0.1);
      FractionSumScaled(line, e + 1, f, 0.1);
    }
  }

  lemma ParseMagnitudeAt(line: string, d: nat, e: nat, f: nat)
    requires d <= e && FractionEndsAt(line, e, f) && DigitsIn(line, d, e)
    ensures ParseMagnitude(line, d)
         == Scan(DecimalValueAt(line, d, e) as real + FractionPartValue(line, e, f), f)
  {
    AccumulateDigitsRun(line, d, e);
    ParseFractionAt(line, e, f);
  }

  /** A float sits at cursor i: spaces up to s, an optional '-', integer
      digits from d to e and a fraction part from e to f. */
  predicate FloatAt(line: string, i: nat, s: nat, negative: bool, e: nat, f: nat)
  {
    var d := if negative then s + 1 else s;
    && i <= s <= d <= e <= |line|
    && SpacesIn(line, i, s)
    && (s < |line| ==> line[s] != ' ')
    && (negative <==> s < |line| && line[s] == '-')
    && DigitsIn(line, d, e)
    && FractionEndsAt(line, e, f)
  }

  /** The signed value of the float FloatAt describes. */
  function FloatValueAt(line: string, i: nat, s: nat, negative: bool, e: nat, f: nat): real
    requires FloatAt(line, i, s, negative, e, f)
  {
    var magnitude := DecimalValueAt(line, if negative then s + 1 else s, e) as real
                     + FractionPartValue(line, e, f);
    if negative then -magnitude else magnitude
  }

  lemma ParseFloatAt(line: string, i: nat, s: nat, negative: bool, e: nat, f: nat)
    requires FloatAt(line, i, s, negative, e, f)
    ensures ParseFloat(line, i) == Scan(FloatValueAt(line, i, s, negative, e, f), f)
  {
    SkipSpacesAt(line, i, s);
    ParseMagnitudeAt(line, if negative then s + 1 else s, e, f);
  }

  /** Every cursor on the line has a float layout, so ParseFloatAt settles
      the value and the end of every scan that starts on the line; a scan
      from past the end is settled by ParseFloat's own contract. */
  lemma ParseFloatLayout(line: string, i: nat)
    requires i <= |line|
    ensures exists s, negative, e, f ::
      && FloatAt(line, i, s, negative, e, f)
      && ParseFloat(line, i) == Scan(FloatValueAt(line, i, s, negative, e, f), f)
  {
    var s := SkipSpaces(line, i);
    var negative := s < |line| && line[s] == '-';
    var e := DigitRunEnd(line, if negative then s + 1 else s);
    var f := if e < |line| && line[e] == '.' then DigitRunEnd(line, e + 1) else e;
    assert FloatAt(line, i, s, negative, e, f);
    ParseFloatAt(line, i, s, negative, e, f);
  }

  /** A scan whose first non-space character cannot begin a number reads 0
      and leaves the cursor on that character. */
  lemma ParseFloatReadsNothing(line: string, i: nat, s: nat)
    requires i <= s <= |line| && SpacesIn(line, i, s)
    requires s < |line| ==> !FloatChar(line[s])
    ensures ParseFloat(line, i) == Scan(0.0, s)
  {
    ParseFloatAt(line, i, s, false, s, s);
  }

  // ---------------------------------------------------------------------
  // Read-back of written numbers
  // ---------------------------------------------------------------------

  /** ParseInt reads back a digit string placed on a line when what
      follows it cannot continue the number. */
  lemma ParseIntReadsPlaced(line: string, at: nat, t: string)
    requires |t| > 0 && AllDigits(t) && Placed(line, at, t)
    requires at + |t| < |line| ==> !IsDigit(line[at + |t|])
    ensures ParseInt(line, at) == Scan(DecimalValue(t), at + |t|)
  {
    PlacedDigits(line, at, t);
    DecimalValueShift(line, at, t, |t|);
    ParseIntReadsDigits(line, at, at + |t|);
  }

  /** ParseInt reads back the decimal spelling of any natural number. */
  lemma ParseIntReadsDecimal(pre: string, n: nat, rest: string)
    requires |rest| > 0 ==> !IsDigit(rest[0])
    ensures ParseInt(pre + DecimalText(n) + rest, |pre|) == Scan(n, |pre| + |DecimalText(n)|)
  {
    var t := DecimalText(n);
    var u := pre + t;
    var line := u + rest;
    assert Placed(line, |pre|, t) && (|u| < |line| ==> line[|u|] == rest[0]) by {
      PlacedConcat(pre, t);
      PlacedConcat(u, rest);
      PlacedWithin(line, 0, u, |pre|, t);
    }
    ParseIntReadsPlaced(line, |pre|, t);
  }

  /** The optional fraction text: '.' and digits, or nothing. */
  function FractionText(fraction: string): string
  {
    if |fraction| > 0 then "." + fraction else ""
  }

  /** The text a float scan is meant to read: an optional '-', integer
      digits, and an optional '.' with fraction digits. */
  function FloatText(negative: bool, whole: string, fraction: string): string
  {
    (if negative then "-" else "") + whole + FractionText(fraction)
  }

  /** Where the parts of a float text land: the sign, the integer digits
      and the fraction text one after the other. */
  lemma FloatTextPieces(negative: bool, whole: string, fraction: string)
    ensures var text := FloatText(negative, whole, fraction);
      var sign := if negative then "-" else "";
      && Placed(text, 0, sign)
      && Placed(text, |sign|, whole)
      && Placed(text, |sign| + |whole|, FractionText(fraction))
      && |text| == |sign| + |whole| + |FractionText(fraction)|
  {
    var sign := if negative then "-" else "";
    var w := sign + whole;
    var text := w + FractionText(fraction);
    PlacedConcat(sign, whole);
    PlacedConcat(w, FractionText(fraction));
    PlacedWithin(text, 0, w, 0, sign);
    PlacedWithin(text, 0, w, |sign|, whole);
  }

  /** ParseFloat reads back a float whose digit strings are placed on the
      line. */
  lemma ParseFloatReadsPlaced(line: string, i: nat, s: nat, negative: bool, whole: string,
                              fraction: string)
    requires AllDigits(whole) && AllDigits(fraction)
    requires var d := if negative then s + 1 else s;
      var e := d + |whole|;
      && FloatAt(line, i, s, negative, e, e + |FractionText(fraction)|)
      && Placed(line, d, whole)
      && (|fraction| > 0 ==> Placed(line, e + 1, fraction))
    ensures
      var magnitude := DecimalValue(whole) as real + FractionValue(fraction);
      var d := if negative then s + 1 else s;
      ParseFloat(line, i)
        == Scan(if negative then -magnitude else magnitude, d + |whole| + |FractionText(fraction)|)
  {
    var d := if negative then s + 1 else s;
    var e := d + |whole|;
    var f := e + |FractionText(fraction)|;
    var magnitude := DecimalValue(whole) as real + FractionValue(fraction);
    assert FloatValueAt(line, i, s, negative, e, f) == if negative then -magnitude else magnitude by {
      assert DecimalValueAt(line, d, e) == DecimalValue(whole) by {
        DecimalValueShift(line, d, whole, |whole|);
      }
      assert FractionPartValue(line, e, f) == FractionValue(fraction) by {
        if |fraction| > 0 {
          FractionValueShift(line, e + 1, fraction, 0);
        }
      }
    }
    ParseFloatAt(line, i, s, negative, e, f);
  }

  /** A float text written on the line at s, after spaces from i and
      before something that cannot continue it, is a float in the sense of
      FloatAt with its digit strings placed where FloatText puts them. */
  lemma FloatTextLayout(line: string, i: nat, s: nat, negative: bool, whole: string,
                        fraction: string)
    requires AllDigits(whole) && AllDigits(fraction)
    requires negative || |whole| > 0 || |fraction| > 0
    requires Placed(line, s, FloatText(negative, whole, fraction))
    requires i <= s && SpacesIn(line, i, s)
    requires var f := s + |FloatText(negative, whole, fraction)|;
      f < |line| ==> !IsDigit(line[f]) && line[f] != '.'
    ensures var d := if negative then s + 1 else s;
      var e := d + |whole|;
      && FloatAt(line, i, s, negative, e, e + |FractionText(fraction)|)
      && Placed(line, d, whole)
      && (|fraction| > 0 ==> Placed(line, e + 1, fraction))
      && e + |FractionText(fraction)| == s + |FloatText(negative, whole, fraction)|
  {
    var sign := if negative then "-" else "";
    var text := FloatText(negative, whole, fraction);
    var ft := FractionText(fraction);
    var d := s + |sign|;
    var e := d + |whole|;
    assert Placed(line, d, whole) && Placed(line, e, ft) && e + |ft| == s + |text| by {
      FloatTextPieces(negative, whole, fraction);
      PlacedWithin(line, s, text, |sign|, whole);
      PlacedWithin(line, s, text, |sign| + |whole|, ft);
    }
    PlacedDigits(line, d, whole);
    assert line[s] != ' ' && (line[s] == '-' <==> negative) by {
      if negative {
        PlacedWithin(line, s, text, 0, sign);
        assert line[s + 0] == sign[0];
      } else if |whole| > 0 {
        assert line[d + 0] == whole[0];
      } else {
        assert line[e + 0] == ft[0];
      }
    }
    if |fraction| > 0 {
      PlacedConcat(".", fraction);
      PlacedWithin(line, e, ft, 1, fraction);
      PlacedDigits(line, e + 1, fraction);
      assert line[e + 0] == ft[0];
    }
  }

  /** ParseFloat reads back a float text written on the line at s, after
      spaces from the cursor i, provided the text is not empty and what
      follows it cannot continue the number. */
  lemma ParseFloatReadsText(line: string, i: nat, s: nat, negative: bool, whole: string,
                            fraction: string)
    requires AllDigits(whole) && AllDigits(fraction)
    requires negative || |whole| > 0 || |fraction| > 0
    requires Placed(line, s, FloatText(negative, whole, fraction))
    requires i <= s && SpacesIn(line, i, s)
    requires var f := s + |FloatText(negative, whole, fraction)|;
      f < |line| ==> !IsDigit(line[f]) && line[f] != '.'
    ensures
      var magnitude := DecimalValue(whole) as real + FractionValue(fraction);
      ParseFloat(line, i)
        == Scan(if negative then -magnitude else magnitude, s + |FloatText(negative, whole, fraction)|)
  {
    FloatTextLayout(line, i, s, negative, whole, fraction);
    ParseFloatReadsPlaced(line, i, s, negative, whole, fraction);
  }

  /** A float as written in a file: its sign, integer digits and fraction
      digits. */
  datatype FloatSpelling = FloatSpelling(negative: bool, whole: string, fraction: string)

  /** A spelling ParseFloat can read back: digits only, and not empty. */
  predicate ValidSpelling(f: FloatSpelling)
  {
    AllDigits(f.whole) && AllDigits(f.fraction) && (f.negative || |f.whole| > 0 || |f.fraction| > 0)
  }

  function SpellingText(f: FloatSpelling): string
  {
    FloatText(f.negative, f.whole, f.fraction)
  }

  /** The number a spelling denotes. */
  function SpellingValue(f: FloatSpelling): real
  {
    var magnitude := DecimalValue(f.whole) as real + FractionValue(f.fraction);
    if f.negative then -magnitude else magnitude
  }
}

=== FILE: welder.dfy ===
/** The vertex welder: each triangle corner is resolved against the raw
    lists and looked up in a dictionary keyed by HashVertexKey; a hit reuses
    the stored index, a miss appends a new unique vertex. */
module Welder {
  import opened MeshTypes

  /** The per-component tolerance of HashVertexKey.Equals. */
  const Epsilon: real := 0.001

  /** The threshold the key uses when the configured one is zero. */
  const DefaultThreshold: real := 0.0001

  /** A resolved corner: the position, normal and texture coordinate it
      renders with. */
  datatype Attribs = Attribs(pos: Vec3, normal: Vec3, uv: Vec2)

  /** The raw lists the corners index into. */
  datatype Source = Source(vertices: seq<Vec3>, normals: seq<Vec3>, uvs: seq<Vec2>)

  // ---------------------------------------------------------------------
  // HashVertexKey
  // ---------------------------------------------------------------------

  function Abs(x: real): real
  {
    if x < 0.0 then -x else x
  }

  predicate Near(a: real, b: real)
  {
    Abs(a - b) < Epsilon
  }

  /** HashVertexKey.Equals: every one of the eight components differs by
      less than the tolerance. */
  predicate Close(a: Attribs, b: Attribs)
  {
    && Near(a.pos.x, b.pos.x) && Near(a.pos.y, b.pos.y) && Near(a.pos.z, b.pos.z)
    && Near(a.normal.x, b.normal.x) && Near(a.normal.y, b.normal.y) && Near(a.normal.z, b.normal.z)
    && Near(a.uv.x, b.uv.x) && Near(a.uv.y, b.uv.y)
  }

  /** The hash the key computes, left abstract: any function of the
      effective threshold and the attributes. */
  type Hasher = (real, Attribs) -> int

  /** The key keeps the attributes and the hash computed at construction. */
  datatype Key = Key(hash: int, attribs: Attribs)

  /** A zero threshold is replaced by the default before hashing. */
  function EffectiveThreshold(threshold: real): real
  {
    if threshold == 0.0 then DefaultThreshold else threshold
  }

  /** The HashVertexKey constructor. */
  function MakeKey(hashOf: Hasher, threshold: real, a: Attribs): Key
  {
    Key(hashOf(EffectiveThreshold(threshold), a), a)
  }

  /** When the dictionary takes a stored key for the looked-up one: the
      hashes agree and Equals holds. */
  predicate Matches(stored: Key, key: Key)
  {
    stored.hash == key.hash && Close(stored.attribs, key.attribs)
  }

  // ---------------------------------------------------------------------
  // Resolving corners
  // ---------------------------------------------------------------------

  /** The attributes of a corner: an index in range picks the listed
      element, anything else the engine default (zero position, up normal,
      zero uv). */
  function Resolve(src: Source, c: MeshVertex): (a: Attribs)
    ensures c.vertexIndex < 0 || c.vertexIndex >= |src.vertices| ==> a.pos == Zero3
    ensures c.normalIndex < 0 || c.normalIndex >= |src.normals| ==> a.normal == Up
    ensures c.uvIndex < 0 || c.uvIndex >= |src.uvs| ==> a.uv == Zero2
    ensures 0 <= c.vertexIndex < |src.vertices| ==> a.pos == src.vertices[c.vertexIndex]
    ensures 0 <= c.normalIndex < |src.normals| ==> a.normal == src.normals[c.normalIndex]
    ensures 0 <= c.uvIndex < |src.uvs| ==> a.uv == src.uvs[c.uvIndex]
  {
    var pos := if c.vertexIndex >= 0 && c.vertexIndex < |src.vertices| then src.vertices[c.vertexIndex] else Zero3;
    var normal := if c.normalIndex >= 0 && c.normalIndex < |src.normals| then src.normals[c.normalIndex] else Up;
    var uv := if c.uvIndex >= 0 && c.uvIndex < |src.uvs| then src.uvs[c.uvIndex] else Zero2;
    Attribs(pos, normal, uv)
  }

  /** The three corners of a triangle in order. */
  function Three(f: ObjFace): seq<MeshVertex>
  {
    [f.v0, f.v1, f.v2]
  }

  /** The corners of a face list in the order the welder visits them. */
  function Corners(faces: seq<ObjFace>): (cs: seq<MeshVertex>)
    ensures |cs| == 3 * |faces|
  {
    if |faces| == 0 then [] else Corners(faces[..|faces| - 1]) + Three(faces[|faces| - 1])
  }

  /** The keys of a corner list. */
  function Keys(src: Source, cs: seq<MeshVertex>, hashOf: Hasher, threshold: real): (ks: seq<Key>)
    ensures |ks| == |cs|
  {
    seq(|cs|, t requires 0 <= t < |cs| => MakeKey(hashOf, threshold, Resolve(src, cs[t])))
  }

  // ---------------------------------------------------------------------
  // The welded buffer
  // ---------------------------------------------------------------------

  /** The three unique-vertex lists grow together. */
  predicate Parallel(d: OptimizedMeshData)
  {
    |d.vertices| == |d.normals| == |d.uvs|
  }

  function Stored(d: OptimizedMeshData, u: int): Attribs
    requires Parallel(d) && 0 <= u < |d.vertices|
  {
    Attribs(d.vertices[u], d.normals[u], d.uvs[u])
  }

  /** The key the dictionary holds for unique vertex u. */
  function StoredKey(d: OptimizedMeshData, u: int, hashOf: Hasher, threshold: real): Key
    requires Parallel(d) && 0 <= u < |d.vertices|
  {
    MakeKey(hashOf, threshold, Stored(d, u))
  }

  /** One triangle entry per corner seen, each naming a unique vertex. */
  predicate InRange(d: OptimizedMeshData, keys: seq<Key>)
  {
    && Parallel(d)
    && |d.triangles| == |keys|
    && forall t :: 0 <= t < |keys| ==> 0 <= d.triangles[t] < |d.vertices|
  }

  /** Each corner names a unique vertex whose key the dictionary takes for
      the corner's own. */
  predicate Represents(d: OptimizedMeshData, keys: seq<Key>, hashOf: Hasher, threshold: real)
    requires InRange(d, keys)
  {
    forall t :: 0 <= t < |keys| ==> Matches(StoredKey(d, d.triangles[t], hashOf, threshold), keys[t])
  }

  /** No unique vertex's key would be taken for a later one's. */
  predicate Distinct(d: OptimizedMeshData, hashOf: Hasher, threshold: real)
    requires Parallel(d)
  {
    forall i, j :: 0 <= i < j < |d.vertices| ==>
      !Matches(StoredKey(d, i, hashOf, threshold), StoredKey(d, j, hashOf, threshold))
  }

  /** Unique vertex u holds exactly the attributes of a corner that
      refers to it. */
  predicate Registered(d: OptimizedMeshData, keys: seq<Key>, u: int)
    requires InRange(d, keys) && 0 <= u < |d.vertices|
  {
    exists t :: 0 <= t < |keys| && d.triangles[t] == u && keys[t].attribs == Stored(d, u)
  }

  predicate AllRegistered(d: OptimizedMeshData, keys: seq<Key>)
    requires InRange(d, keys)
  {
    forall u :: 0 <= u < |d.vertices| ==> Registered(d, keys, u)
  }

  /** A corner that the vertex of some earlier corner matches reuses an
      index already handed out. */
  predicate Reuses(d: OptimizedMeshData, keys: seq<Key>, hashOf: Hasher, threshold: real)
    requires InRange(d, keys)
  {
    forall s, t :: 0 <= s < t < |keys| && Matches(StoredKey(d, d.triangles[s], hashOf, threshold), keys[t]) ==>
      d.triangles[t] in d.triangles[..t]
  }

  /** The corner that first uses an index is the one whose attributes went
      into the unique lists, and the index it gets is the number of unique
      vertices before it: above every earlier index, with none missing below. */
  predicate FirstUse(d: OptimizedMeshData, keys: seq<Key>)
    requires InRange(d, keys)
  {
    forall t :: 0 <= t < |keys| && d.triangles[t] !in d.triangles[..t] ==>
      && keys[t].attribs == Stored(d, d.triangles[t])
      && (forall s :: 0 <= s < t ==> d.triangles[s] < d.triangles[t])
      && (forall v :: 0 <= v < d.triangles[t] ==> v in d.triangles[..t])
  }

  /** What the welder guarantees after the corners whose keys are keys. */
  predicate Welds(d: OptimizedMeshData, keys: seq<Key>, hashOf: Hasher, threshold: real)
  {
    && InRange(d, keys)
    && Represents(d, keys, hashOf, threshold)
    && Distinct(d, hashOf, threshold)
    && AllRegistered(d, keys)
    && Reuses(d, keys, hashOf, threshold)
    && FirstUse(d, keys)
  }

  /** The dictionary as a list of (key, index) entries: entry j holds the
      key of unique vertex j. */
  predicate Indexes(entries: seq<(Key, int)>, d: OptimizedMeshData, hashOf: Hasher, threshold: real)
  {
    && Parallel(d)
    && |entries| == |d.vertices|
    && forall j :: 0 <= j < |entries| ==> entries[j] == (StoredKey(d, j, hashOf, threshold), j)
  }

  /** The empty buffer and dictionary the welder starts from. */
  lemma WeldsEmpty(hashOf: Hasher, threshold: real)
    ensures Welds(OptimizedMeshData([], [], [], []), [], hashOf, threshold)
    ensures Indexes([], OptimizedMeshData([], [], [], []), hashOf, threshold)
  {
  }

  /** The buffer after a hit on unique vertex j. */
  function Hit(d: OptimizedMeshData, j: int): OptimizedMeshData
  {
    d.(triangles := d.triangles + [j])
  }

  /** The buffer after a miss for attributes a. */
  function Miss(d: OptimizedMeshData, a: Attribs): OptimizedMeshData
  {
    OptimizedMeshData(d.vertices + [a.pos], d.normals + [a.normal], d.uvs + [a.uv], d.triangles + [|d.vertices|])
  }

  lemma HitRegistered(d: OptimizedMeshData, keys: seq<Key>, key: Key, j: int)
    requires InRange(d, keys) && AllRegistered(d, keys) && 0 <= j < |d.vertices|
    ensures InRange(Hit(d, j), keys + [key]) && AllRegistered(Hit(d, j), keys + [key])
    ensures j in d.triangles
  {
    var d' := Hit(d, j);
    var keys' := keys + [key];
    forall u | 0 <= u < |d'.vertices| ensures Registered(d', keys', u) {
      assert Registered(d, keys, u);
      var t :| 0 <= t < |keys| && d.triangles[t] == u && keys[t].attribs == Stored(d, u);
      assert d'.triangles[t] == u && keys'[t] == keys[t];
    }
    assert Registered(d, keys, j);
  }

  lemma HitFirstUse(d: OptimizedMeshData, keys: seq<Key>, key: Key, j: int)
    requires InRange(d, keys) && AllRegistered(d, keys) && FirstUse(d, keys) && 0 <= j < |d.vertices|
    ensures InRange(Hit(d, j), keys + [key]) && FirstUse(Hit(d, j), keys + [key])
  {
    var d' := Hit(d, j);
    var keys' := keys + [key];
    var n := |keys|;
    HitRegistered(d, keys, key, j);
    forall t | 0 <= t < n + 1 && d'.triangles[t] !in d'.triangles[..t]
      ensures && keys'[t].attribs == Stored(d', d'.triangles[t])
              && (forall s :: 0 <= s < t ==> d'.triangles[s] < d'.triangles[t])
              && (forall v :: 0 <= v < d'.triangles[t] ==> v in d'.triangles[..t])
    {
      if t < n {
        assert d'.triangles[..t] == d.triangles[..t] && d'.triangles[t] == d.triangles[t];
        assert keys'[t] == keys[t] && Stored(d', d.triangles[t]) == Stored(d, d.triangles[t]);
      }
    }
  }

  lemma HitRepresents(d: OptimizedMeshData, keys: seq<Key>, key: Key, j: int, hashOf: Hasher, threshold: real)
    requires InRange(d, keys) && Represents(d, keys, hashOf, threshold) && 0 <= j < |d.vertices|
    requires Matches(StoredKey(d, j, hashOf, threshold), key)
    ensures InRange(Hit(d, j), keys + [key]) && Represents(Hit(d, j), keys + [key], hashOf, threshold)
  {
    var d' := Hit(d, j);
    var keys' := keys + [key];
    assert forall t :: 0 <= t < |keys| ==> d'.triangles[t] == d.triangles[t] && keys'[t] == keys[t];
    assert d'.triangles[|keys|] == j && keys'[|keys|] == key;
  }

  lemma HitReuses(d: OptimizedMeshData, keys: seq<Key>, key: Key, j: int, hashOf: Hasher, threshold: real)
    requires InRange(d, keys) && Reuses(d, keys, hashOf, threshold) && 0 <= j < |d.vertices|
    requires j in d.triangles
    ensures InRange(Hit(d, j), keys + [key]) && Reuses(Hit(d, j), keys + [key], hashOf, threshold)
  {
    var d' := Hit(d, j);
    var keys' := keys + [key];
    var n := |keys|;
    forall s, t | 0 <= s < t < n + 1 && Matches(StoredKey(d', d'.triangles[s], hashOf, threshold), keys'[t])
      ensures d'.triangles[t] in d'.triangles[..t]
    {
      if t < n {
        assert d'.triangles[..t] == d.triangles[..t] && d'.triangles[s] == d.triangles[s];
        assert keys'[t] == keys[t] && d'.triangles[t] == d.triangles[t];
      } else {
        assert d'.triangles[..t] == d.triangles && d'.triangles[t] == j;
      }
    }
  }

  lemma HitDistinct(d: OptimizedMeshData, j: int, hashOf: Hasher, threshold: real)
    requires Parallel(d) && Distinct(d, hashOf, threshold)
    ensures Parallel(Hit(d, j)) && Distinct(Hit(d, j), hashOf, threshold)
  {
    forall u | 0 <= u < |d.vertices|
      ensures StoredKey(Hit(d, j), u, hashOf, threshold) == StoredKey(d, u, hashOf, threshold)
    {
    }
  }

  lemma HitWelds(d: OptimizedMeshData, keys: seq<Key>, key: Key, j: int, hashOf: Hasher, threshold: real)
    requires Welds(d, keys, hashOf, threshold) && 0 <= j < |d.vertices|
    requires Matches(StoredKey(d, j, hashOf, threshold), key)
    ensures Welds(Hit(d, j), keys + [key], hashOf, threshold)
  {
    HitRegistered(d, keys, key, j);
    HitFirstUse(d, keys, key, j);
    HitRepresents(d, keys, key, j, hashOf, threshold);
    HitReuses(d, keys, key, j, hashOf, threshold);
    HitDistinct(d, j, hashOf, threshold);
  }

  lemma MissRegistered(d: OptimizedMeshData, keys: seq<Key>, key: Key)
    requires InRange(d, keys) && AllRegistered(d, keys)
    ensures InRange(Miss(d, key.attribs), keys + [key]) && AllRegistered(Miss(d, key.attribs), keys + [key])
  {
    var d' := Miss(d, key.attribs);
    var keys' := keys + [key];
    var n := |keys|;
    forall u | 0 <= u < |d'.vertices| ensures Registered(d', keys', u) {
      if u < |d.vertices| {
        assert Registered(d, keys, u);
        var t :| 0 <= t < n && d.triangles[t] == u && keys[t].attribs == Stored(d, u);
        assert d'.triangles[t] == u && keys'[t] == keys[t] && Stored(d', u) == Stored(d, u);
      } else {
        assert d'.triangles[n] == u && keys'[n] == key;
      }
    }
  }

  lemma MissDistinct(d: OptimizedMeshData, key: Key, hashOf: Hasher, threshold: real)
    requires Parallel(d) && Distinct(d, hashOf, threshold)
    requires key == MakeKey(hashOf, threshold, key.attribs)
    requires forall i :: 0 <= i < |d.vertices| ==> !Matches(StoredKey(d, i, hashOf, threshold), key)
    ensures Parallel(Miss(d, key.attribs)) && Distinct(Miss(d, key.attribs), hashOf, threshold)
  {
    var d' := Miss(d, key.attribs);
    forall i, j | 0 <= i < j < |d'.vertices|
      ensures !Matches(StoredKey(d', i, hashOf, threshold), StoredKey(d', j, hashOf, threshold))
    {
      assert StoredKey(d', i, hashOf, threshold) == StoredKey(d, i, hashOf, threshold);
      if j < |d.vertices| {
        assert StoredKey(d', j, hashOf, threshold) == StoredKey(d, j, hashOf, threshold);
      } else {
        assert StoredKey(d', j, hashOf, threshold) == key;
      }
    }
  }

  lemma MissFirstUse(d: OptimizedMeshData, keys: seq<Key>, key: Key)
    requires InRange(d, keys) && AllRegistered(d, keys) && FirstUse(d, keys)
    ensures InRange(Miss(d, key.attribs), keys + [key]) && FirstUse(Miss(d, key.attribs), keys + [key])
  {
    var d' := Miss(d, key.attribs);
    var keys' := keys + [key];
    var n := |keys|;
    MissRegistered(d, keys, key);
    forall t | 0 <= t < n + 1 && d'.triangles[t] !in d'.triangles[..t]
      ensures && keys'[t].attribs == Stored(d', d'.triangles[t])
              && (forall s :: 0 <= s < t ==> d'.triangles[s] < d'.triangles[t])
              && (forall v :: 0 <= v < d'.triangles[t] ==> v in d'.triangles[..t])
    {
      if t < n {
        assert d'.triangles[..t] == d.triangles[..t] && d'.triangles[t] == d.triangles[t];
        assert keys'[t] == keys[t] && Stored(d', d.triangles[t]) == Stored(d, d.triangles[t]);
      } else {
        assert d'.triangles[..t] == d.triangles && d'.triangles[t] == |d.vertices|;
        assert keys'[t] == key && Stored(d', |d.vertices|) == key.attribs;
        forall v | 0 <= v < |d.vertices| ensures v in d.triangles {
          assert Registered(d, keys, v);
        }
      }
    }
  }

  lemma MissWelds(d: OptimizedMeshData, keys: seq<Key>, key: Key, hashOf: Hasher, threshold: real)
    requires Welds(d, keys, hashOf, threshold)
    requires key == MakeKey(hashOf, threshold, key.attribs)
    requires forall i :: 0 <= i < |d.vertices| ==> !Matches(StoredKey(d, i, hashOf, threshold), key)
    ensures Welds(Miss(d, key.attribs), keys + [key], hashOf, threshold)
  {
    var d' := Miss(d, key.attribs);
    var keys' := keys + [key];
    var n := |keys|;
    MissRegistered(d, keys, key);
    MissFirstUse(d, keys, key);
    MissDistinct(d, key, hashOf, threshold);
    assert d'.triangles[..n] == d.triangles;
    assert Stored(d', |d.vertices|) == key.attribs;
    forall t | 0 <= t < n + 1
      ensures Matches(StoredKey(d', d'.triangles[t], hashOf, threshold), keys'[t])
    {
      if t < n {
        assert Stored(d', d.triangles[t]) == Stored(d, d.triangles[t]);
      }
    }
    forall s, t | 0 <= s < t < n + 1 && Matches(StoredKey(d', d'.triangles[s], hashOf, threshold), keys'[t])
      ensures d'.triangles[t] in d'.triangles[..t]
    {
      assert Stored(d', d.triangles[s]) == Stored(d, d.triangles[s]);
      if t < n {
        assert d'.triangles[..t] == d.triangles[..t];
      }
    }
  }

  lemma IndexesAfter(entries: seq<(Key, int)>, d: OptimizedMeshData, key: Key, hashOf: Hasher, threshold: real)
    requires Indexes(entries, d, hashOf, threshold)
    requires key == MakeKey(hashOf, threshold, key.attribs)
    ensures forall j :: 0 <= j < |d.vertices| ==> Indexes(entries, Hit(d, j), hashOf, threshold)
    ensures Indexes(entries + [(key, |d.vertices|)], Miss(d, key.attribs), hashOf, threshold)
  {
    var d' := Miss(d, key.attribs);
    assert forall j :: 0 <= j < |d.vertices| ==> Stored(d', j) == Stored(d, j);
    assert Stored(d', |d.vertices|) == key.attribs;
  }

  /** One corner of the welding loop: TryGetValue, then either the stored
      index or a new unique vertex registered under the key at the next
      index. Which of several matching entries a hit returns is left open. */
  method WeldCorner(d: OptimizedMeshData, entries: seq<(Key, int)>, ghost keys: seq<Key>, key: Key,
                    hashOf: Hasher, threshold: real)
    returns (d': OptimizedMeshData, entries': seq<(Key, int)>, index: int)
    requires Welds(d, keys, hashOf, threshold) && Indexes(entries, d, hashOf, threshold)
    requires key == MakeKey(hashOf, threshold, key.attribs)
    ensures Welds(d', keys + [key], hashOf, threshold) && Indexes(entries', d', hashOf, threshold)
    ensures d'.triangles[..|keys|] == d.triangles
    ensures || (&& 0 <= index < |d.vertices| && Matches(StoredKey(d, index, hashOf, threshold), key)
                && d' == Hit(d, index))
            || (&& (forall i :: 0 <= i < |d.vertices| ==> !Matches(StoredKey(d, i, hashOf, threshold), key))
                && index == |d.vertices| && d' == Miss(d, key.attribs))
  {
    IndexesAfter(entries, d, key, hashOf, threshold);
    if exists j :: 0 <= j < |entries| && Matches(entries[j].0, key) {
      var j :| 0 <= j < |entries| && Matches(entries[j].0, key);
      var existing := entries[j].1;
      index := existing;
      d' := d.(triangles := d.triangles + [existing]);
      entries' := entries;
      HitWelds(d, keys, key, existing, hashOf, threshold);
      HitRegistered(d, keys, key, existing);
    } else {
      var newIndex := |d.vertices|;
      index := newIndex;
      var a := key.attribs;
      d' := OptimizedMeshData(d.vertices + [a.pos], d.normals + [a.normal], d.uvs + [a.uv],
                              d.triangles + [newIndex]);
      entries' := entries + [(key, newIndex)];
      assert forall i :: 0 <= i < |d.vertices| ==> entries[i].0 == StoredKey(d, i, hashOf, threshold);
      MissWelds(d, keys, key, hashOf, threshold);
    }
    assert d'.triangles[..|keys|] == d.triangles;
  }

  /** The body of the welding loop for corner t of a corner list whose keys
      are all. */
  method WeldNext(src: Source, corners: seq<MeshVertex>, ghost all: seq<Key>, t: nat,
                  data: OptimizedMeshData, entries: seq<(Key, int)>, hashOf: Hasher, threshold: real)
    returns (data': OptimizedMeshData, entries': seq<(Key, int)>)
    requires all == Keys(src, corners, hashOf, threshold) && t < |corners|
    requires Welds(data, all[..t], hashOf, threshold) && Indexes(entries, data, hashOf, threshold)
    ensures Welds(data', all[..t + 1], hashOf, threshold) && Indexes(entries', data', hashOf, threshold)
  {
    var key := MakeKey(hashOf, threshold, Resolve(src, corners[t]));
    assert all[..t + 1] == all[..t] + [key] by {
      assert all[t] == key;
    }
    var index;
    data', entries', index := WeldCorner(data, entries, all[..t], key, hashOf, threshold);
  }

  /** CreateOptimizedMeshData: the corners of the faces are welded in the
      order of the source's nested loops (face by face, corners 0, 1, 2);
      the result satisfies Welds for the keys of all corners. */
  method CreateOptimizedMeshData(src: Source, faces: seq<ObjFace>, hashOf: Hasher, threshold: real)
    returns (data: OptimizedMeshData)
    ensures |data.triangles| == 3 * |faces|
    ensures Welds(data, Keys(src, Corners(faces), hashOf, threshold), hashOf, threshold)
  {
    var corners := Corners(faces);
    ghost var all := Keys(src, corners, hashOf, threshold);
    data := OptimizedMeshData([], [], [], []);
    var entries: seq<(Key, int)> := [];
    WeldsEmpty(hashOf, threshold);
    for t := 0 to |corners|
      invariant Welds(data, all[..t], hashOf, threshold)
      invariant Indexes(entries, data, hashOf, threshold)
    {
      data, entries := WeldNext(src, corners, all, t, data, entries, hashOf, threshold);
    }
    assert all[..|corners|] == all;
  }

  // ---------------------------------------------------------------------
  // Properties
  // ---------------------------------------------------------------------

  /** Equals is reflexive: a key always matches itself. */
  lemma CloseReflexive(a: Attribs)
    ensures Close(a, a)
  {
  }

  /** Equals is symmetric. */
  lemma CloseSymmetric(a: Attribs, b: Attribs)
    ensures Close(a, b) <==> Close(b, a)
  {
  }

  /** Equals is not transitive: three positions 0.0009 apart. */
  lemma CloseNotTransitive()
    ensures exists a, b, c :: Close(a, b) && Close(b, c) && !Close(a, c)
  {
    var a := Attribs(Vec3(0.0, 0.0, 0.0), Up, Zero2);
    var b := Attribs(Vec3(0.0009, 0.0, 0.0), Up, Zero2);
    var c := Attribs(Vec3(0.0018, 0.0, 0.0), Up, Zero2);
    assert Close(a, b) && Close(b, c) && !Close(a, c);
  }

  /** A corner whose resolved attributes equal an earlier corner's reuses
      an index already handed out. */
  lemma IdenticalCornersShare(d: OptimizedMeshData, keys: seq<Key>, hashOf: Hasher, threshold: real, s: int, t: int)
    requires Welds(d, keys, hashOf, threshold)
    requires 0 <= s < t < |keys| && keys[s] == keys[t]
    ensures d.triangles[t] in d.triangles[..t]
  {
    assert Matches(StoredKey(d, d.triangles[s], hashOf, threshold), keys[t]);
  }

  /** The first corner always opens unique vertex 0, which keeps that
      corner's own resolved attributes, whatever later corners match it. */
  lemma FirstCornerOpensVertexZero(d: OptimizedMeshData, keys: seq<Key>, hashOf: Hasher, threshold: real)
    requires Welds(d, keys, hashOf, threshold) && |keys| > 0
    ensures d.triangles[0] == 0 && Stored(d, 0) == keys[0].attribs
  {
    assert d.triangles[..0] == [];
    assert d.triangles[0] !in d.triangles[..0];
    assert 0 !in d.triangles[..0];
  }

  // ---------------------------------------------------------------------
  // Idempotence
  // ---------------------------------------------------------------------

  /** Every triangle entry names a unique vertex. */
  predicate Indexed(d: OptimizedMeshData)
  {
    && Parallel(d)
    && forall t :: 0 <= t < |d.triangles| ==> 0 <= d.triangles[t] < |d.vertices|
  }

  /** The keys a welded buffer presents when its own triangles are welded
      again: entry t resolves to the unique vertex it names. */
  function ReKeys(d: OptimizedMeshData, hashOf: Hasher, threshold: real): (ks: seq<Key>)
    requires Indexed(d)
    ensures |ks| == |d.triangles|
    ensures forall t :: 0 <= t < |ks| ==> ks[t] == StoredKey(d, d.triangles[t], hashOf, threshold)
  {
    seq(|d.triangles|, t requires 0 <= t < |d.triangles| => StoredKey(d, d.triangles[t], hashOf, threshold))
  }

  /** The first position at which v occurs. */
  function FirstIndex(xs: seq<int>, v: int): (i: nat)
    requires v in xs
    ensures i < |xs| && xs[i] == v && v !in xs[..i]
    ensures forall j :: 0 <= j < |xs| && xs[j] == v ==> i <= j
  {
    if xs[0] == v then 0
    else
      var i := 1 + FirstIndex(xs[1..], v);
      assert xs[..i] == [xs[0]] + xs[1..][..i - 1];
      i
  }

  /** Two buffers agree on their first t triangle entries. */
  predicate Agree(d: OptimizedMeshData, d2: OptimizedMeshData, t: int)
  {
    && 0 <= t <= |d.triangles| && t <= |d2.triangles|
    && forall s :: 0 <= s < t ==> d2.triangles[s] == d.triangles[s]
  }

  /** d welds keys, and d2 welds the keys of d's own entries again. */
  predicate Rewelds(d: OptimizedMeshData, keys: seq<Key>, d2: OptimizedMeshData, hashOf: Hasher, threshold: real)
  {
    && Welds(d, keys, hashOf, threshold)
    && Welds(d2, ReKeys(d, hashOf, threshold), hashOf, threshold)
  }

  /** Distinct unique vertices: a stored key matches another only when they
      are the same vertex, whichever comes first. */
  lemma DistinctSame(d: OptimizedMeshData, w: int, u: int, hashOf: Hasher, threshold: real)
    requires Parallel(d) && Distinct(d, hashOf, threshold)
    requires 0 <= w < |d.vertices| && 0 <= u < |d.vertices|
    requires Matches(StoredKey(d, w, hashOf, threshold), StoredKey(d, u, hashOf, threshold))
    ensures w == u
  {
    if u < w {
      CloseSymmetric(StoredKey(d, w, hashOf, threshold).attribs, StoredKey(d, u, hashOf, threshold).attribs);
    }
  }

  /** A re-weld that agrees on the entries before the first use of a vertex
      stores that vertex with the same attributes. */
  lemma StoredAgree(d: OptimizedMeshData, d2: OptimizedMeshData, hashOf: Hasher, threshold: real,
                    t: int, i: int)
    requires Indexed(d) && InRange(d2, ReKeys(d, hashOf, threshold))
    requires FirstUse(d2, ReKeys(d, hashOf, threshold))
    requires Agree(d, d2, t) && 0 <= i < t && d.triangles[i] !in d.triangles[..i]
    ensures Stored(d2, d.triangles[i]) == Stored(d, d.triangles[i])
  {
    assert d2.triangles[..i] == d.triangles[..i];
    assert d2.triangles[i] !in d2.triangles[..i];
  }

  /** Every vertex named before entry t is stored alike by a re-weld that
      agrees that far. */
  lemma PrefixStoredAgree(d: OptimizedMeshData, d2: OptimizedMeshData, hashOf: Hasher, threshold: real,
                          t: int, s: int)
    requires Indexed(d) && InRange(d2, ReKeys(d, hashOf, threshold))
    requires FirstUse(d2, ReKeys(d, hashOf, threshold))
    requires Agree(d, d2, t) && 0 <= s < t
    ensures Stored(d2, d.triangles[s]) == Stored(d, d.triangles[s])
  {
    var i := FirstIndex(d.triangles, d.triangles[s]);
    StoredAgree(d, d2, hashOf, threshold, t, i);
  }

  /** An entry that repeats an earlier vertex of d is reused by the re-weld
      with that same vertex. */
  lemma RepeatStep(d: OptimizedMeshData, keys: seq<Key>, d2: OptimizedMeshData, hashOf: Hasher, threshold: real,
                   t: int)
    requires Rewelds(d, keys, d2, hashOf, threshold)
    requires 0 <= t < |d.triangles| && Agree(d, d2, t) && d.triangles[t] in d.triangles[..t]
    ensures d2.triangles[t] == d.triangles[t]
  {
    var rk := ReKeys(d, hashOf, threshold);
    var u := d.triangles[t];
    var s :| 0 <= s < t && d.triangles[s] == u;
    assert rk[s] == rk[t];
    assert Matches(StoredKey(d2, d2.triangles[s], hashOf, threshold), rk[t]);
    assert d2.triangles[t] in d2.triangles[..t];
    var s' :| 0 <= s' < t && d2.triangles[s'] == d2.triangles[t];
    var w := d.triangles[s'];
    PrefixStoredAgree(d, d2, hashOf, threshold, t, s');
    assert StoredKey(d2, w, hashOf, threshold) == StoredKey(d, w, hashOf, threshold);
    DistinctSame(d, w, u, hashOf, threshold);
  }

  /** An entry that opens a vertex of d opens the same vertex in the
      re-weld: both are the number of vertices named before it. */
  lemma FreshStep(d: OptimizedMeshData, keys: seq<Key>, d2: OptimizedMeshData, hashOf: Hasher, threshold: real,
                  t: int)
    requires Rewelds(d, keys, d2, hashOf, threshold)
    requires 0 <= t < |d.triangles| && Agree(d, d2, t) && d.triangles[t] !in d.triangles[..t]
    ensures d2.triangles[t] == d.triangles[t]
  {
    var rk := ReKeys(d, hashOf, threshold);
    var u := d.triangles[t];
    var w := d2.triangles[t];
    assert d2.triangles[..t] == d.triangles[..t];
    if w in d2.triangles[..t] {
      var s :| 0 <= s < t && d2.triangles[s] == w;
      PrefixStoredAgree(d, d2, hashOf, threshold, t, s);
      assert false;
    }
  }

  /** A re-weld of d's own entries agrees with d on every prefix. */
  lemma {:induction false} TrianglesAgree(d: OptimizedMeshData, keys: seq<Key>, d2: OptimizedMeshData,
                                          hashOf: Hasher, threshold: real, t: int)
    requires Rewelds(d, keys, d2, hashOf, threshold)
    requires 0 <= t <= |d.triangles|
    ensures Agree(d, d2, t)
    decreases t
  {
    if t > 0 {
      TrianglesAgree(d, keys, d2, hashOf, threshold, t - 1);
      StepAgree(d, keys, d2, hashOf, threshold, t - 1);
      AgreeExtend(d, d2, t - 1);
    }
  }

  /** Agreement extends by one entry on which both buffers agree. */
  lemma AgreeExtend(d: OptimizedMeshData, d2: OptimizedMeshData, t: int)
    requires Agree(d, d2, t) && t < |d.triangles| && t < |d2.triangles|
    requires d2.triangles[t] == d.triangles[t]
    ensures Agree(d, d2, t + 1)
  {
  }

  /** One more entry of the re-weld agrees with d. */
  lemma StepAgree(d: OptimizedMeshData, keys: seq<Key>, d2: OptimizedMeshData, hashOf: Hasher, threshold: real,
                  t: int)
    requires Rewelds(d, keys, d2, hashOf, threshold)
    requires 0 <= t < |d.triangles| && Agree(d, d2, t)
    ensures t < |d2.triangles| && d2.triangles[t] == d.triangles[t]
  {
    if d.triangles[t] in d.triangles[..t] {
      RepeatStep(d, keys, d2, hashOf, threshold, t);
    } else {
      FreshStep(d, keys, d2, hashOf, threshold, t);
    }
  }

  /** Two buffers with the same triangle entries, each naming every one
      of its unique vertices, have the same number of unique vertices. */
  lemma SameVertexCount(d: OptimizedMeshData, keys: seq<Key>, d2: OptimizedMeshData, keys2: seq<Key>)
    requires InRange(d, keys) && AllRegistered(d, keys)
    requires InRange(d2, keys2) && AllRegistered(d2, keys2)
    requires d2.triangles == d.triangles
    ensures |d2.vertices| == |d.vertices|
  {
    FewerVertices(d, keys, d2, keys2);
    FewerVertices(d2, keys2, d, keys);
  }

  /** A buffer naming every one of its unique vertices has no more of them
      than any buffer with the same entries has. */
  lemma FewerVertices(d: OptimizedMeshData, keys: seq<Key>, d2: OptimizedMeshData, keys2: seq<Key>)
    requires InRange(d, keys) && AllRegistered(d, keys)
    requires InRange(d2, keys2) && d2.triangles == d.triangles
    ensures |d.vertices| <= |d2.vertices|
  {
    if 0 < |d.vertices| {
      var u := |d.vertices| - 1;
      assert Registered(d, keys, u);
      var t :| 0 <= t < |keys| && d.triangles[t] == u;
      assert d2.triangles[t] < |d2.vertices|;
    }
  }

  /** Welding is idempotent: any buffer that welds the keys of a welded
      buffer's own entries is that buffer, triangles and unique lists alike. */
  lemma WeldIdempotent(d: OptimizedMeshData, keys: seq<Key>, d2: OptimizedMeshData,
                       hashOf: Hasher, threshold: real)
    requires Rewelds(d, keys, d2, hashOf, threshold)
    ensures d2 == d
  {
    TrianglesAgree(d, keys, d2, hashOf, threshold, |d.triangles|);
    assert d2.triangles == d.triangles;
    SameVertexCount(d, keys, d2, ReKeys(d, hashOf, threshold));
    forall u | 0 <= u < |d.vertices|
      ensures d2.vertices[u] == d.vertices[u] && d2.normals[u] == d.normals[u] && d2.uvs[u] == d.uvs[u]
    {
      assert Registered(d, keys, u);
      var t :| 0 <= t < |keys| && d.triangles[t] == u;
      PrefixStoredAgree(d, d2, hashOf, threshold, |d.triangles|, t);
    }
    assert d2.vertices == d.vertices && d2.normals == d.normals && d2.uvs == d.uvs;
  }

  /** A corner naming unique vertex u for its position, normal and
      texture coordinate alike. */
  function Same(u: int): MeshVertex
  {
    MeshVertex(u, u, u)
  }

  /** A welded buffer read back as the welder's input: its unique lists
      are the raw lists. */
  function ReweldSource(d: OptimizedMeshData): Source
  {
    Source(d.vertices, d.normals, d.uvs)
  }

  /** A welded buffer's entries, three at a time, as the faces of a mesh. */
  function ReweldFaces(d: OptimizedMeshData): (fs: seq<ObjFace>)
    requires |d.triangles| % 3 == 0
    ensures 3 * |fs| == |d.triangles|
  {
    seq(|d.triangles| / 3, k requires 0 <= k < |d.triangles| / 3 =>
      ObjFace(Same(d.triangles[3 * k]), Same(d.triangles[3 * k + 1]), Same(d.triangles[3 * k + 2])))
  }

  /** Welding the faces of a buffer against its own unique lists looks up,
      at each corner, the key of the unique vertex that corner names. */
  lemma ReweldKeys(d: OptimizedMeshData, hashOf: Hasher, threshold: real)
    requires Indexed(d) && |d.triangles| % 3 == 0
    ensures Keys(ReweldSource(d), Corners(ReweldFaces(d)), hashOf, threshold) == ReKeys(d, hashOf, threshold)
  {
    var ks := Keys(ReweldSource(d), Corners(ReweldFaces(d)), hashOf, threshold);
    var rk := ReKeys(d, hashOf, threshold);
    forall t | 0 <= t < |d.triangles|
      ensures ks[t] == rk[t]
    {
      ReweldCorner(d, t / 3, t % 3);
    }
  }

  /** Corner i of re-welded face k names the unique vertex of entry 3k+i. */
  lemma ReweldCorner(d: OptimizedMeshData, k: int, i: int)
    requires Indexed(d) && |d.triangles| % 3 == 0
    requires 0 <= k < |d.triangles| / 3 && 0 <= i < 3
    ensures Corners(ReweldFaces(d))[3 * k + i] == Same(d.triangles[3 * k + i])
  {
    CornersAt(ReweldFaces(d), k, i);
  }

  /** Welding a welded buffer's own entries against its own unique lists
      gives back that buffer. */
  method Reweld(d: OptimizedMeshData, ghost keys: seq<Key>, hashOf: Hasher, threshold: real)
    returns (d2: OptimizedMeshData)
    requires Welds(d, keys, hashOf, threshold) && |d.triangles| % 3 == 0
    ensures d2 == d
  {
    d2 := CreateOptimizedMeshData(ReweldSource(d), ReweldFaces(d), hashOf, threshold);
    ReweldKeys(d, hashOf, threshold);
    WeldIdempotent(d, keys, d2, hashOf, threshold);
  }

  /** Each face contributes its three corners, in order, at positions
      3k, 3k+1 and 3k+2. */
  lemma {:induction false} CornersAt(faces: seq<ObjFace>, k: int, i: int)
    requires 0 <= k < |faces| && 0 <= i < 3
    ensures Corners(faces)[3 * k + i] == Three(faces[k])[i]
    decreases |faces|
  {
    var n := |faces| - 1;
    var init := faces[..n];
    assert Corners(faces) == Corners(init) + Three(faces[n]);
    if k < n {
      CornersAt(init, k, i);
      assert init[k] == faces[k];
    }
  }
}
